=== FILE: README.md ===
# Drum sampler core, modelled in Dafny

A browser drum sampler plays samples from a grid of pads. This project models
its core logic as pure functions over immutable state and proves properties of
them.

- **Recorder** records pad hits as `(pad, offset)` events and keeps the list of
  finished sequences. It also names sequences, deletes them, and sanitises the
  export file name.
- **LivePlayback** plays a sequence through a table of pending timers. A
  handle list owns the timers, and `stopPlayback` cancels them.
- **OfflineRender** builds the plan for the WAV export: one offline buffer
  source per event whose pad is loaded, and the frame count. The export fails
  when a source would start at a negative time or buffer offset.
- **WavEncoder** writes 16-bit PCM bytes, and a reader decodes them back.
- **WaveformCanvas** holds the trim-region editor: pixel/second conversions,
  `setBuffer`, `setRegion`, and the mouse drag rules.
- **SamplerGui** holds the GUI state:
  - the pads' enabled/loaded/failed/active marks;
  - the per-pad trims;
  - pad selection, the preview and its progress animation;
  - stop.
- **PresetApi** models the preset REST service:
  - list filtering by `type`, `factory` and `q`;
  - the POST, PUT and PATCH record overlays;
  - the seeding loop.
- **Common**, **Audio** and **Decimal** are shared helpers. They cover
  `Array.filter`, trim lookup, and the `${n}` rendering of a natural number.

Clocks, `Date.now()`, UUIDs and the ISO timestamp become parameters (`now`,
`id`, `uuid`). A `setTimeout` handle is a natural number drawn from a counter
in the session. Times are `real`. Bytes are integers in `0 .. 255`.

## Model

| member | source | states |
|---|---|---|
| Recorder.StartRecording | Seance4_IntroWebAudio/Example5/js/Sequencer.js:21-29 | a second start is ignored; a start from idle records from `now` with an empty take and leaves the finished sequences alone |
| Recorder.RecordHit | Seance4_IntroWebAudio/Example5/js/Sequencer.js:46-51 | hits while idle are dropped; while recording, exactly one event `(index, now - t0)` is appended after the earlier ones |
| Recorder.StopRecording | Seance4_IntroWebAudio/Example5/js/Sequencer.js:31-44 | stopping always ends recording; an empty take adds nothing; otherwise one sequence is appended with the given id, exactly the recorded events, the last offset plus 0.5 s as duration and the name `Sequence N (k hits)` numbered by list length |
| Recorder.DeleteSequence | Seance4_IntroWebAudio/Example5/js/Sequencer.js:103 | the list keeps exactly the sequences with another id, in order and each as many times as before, drops every copy of the deleted one, and an unknown id changes nothing |
| Recorder.DeleteCounts | Seance4_IntroWebAudio/Example5/js/Sequencer.js:103 | filtering by id keeps the count of every other sequence and leaves none with the deleted id |
| Recorder.ExportFileName | Seance4_IntroWebAudio/Example5/js/Sequencer.js:161 | the name ends in `_export.wav`; its stem holds each character of `[A-Za-z0-9_]` exactly as often as the sequence name does and no other character, in the name's order |
| Recorder.ExportFileNameOfCleanName | Seance4_IntroWebAudio/Example5/js/Sequencer.js:161 | a name already made of word characters passes through unchanged |
| Recorder.RecordHitsAppends | Seance4_IntroWebAudio/Example5/js/Sequencer.js:46-51 | a run of hits while recording appends one event per hit, offset from the start time, in delivery order |
| Recorder.RecordHitsIdle | Seance4_IntroWebAudio/Example5/js/Sequencer.js:47 | hits delivered while idle leave the recorder unchanged |
| Recorder.RecordedFromStart | Seance4_IntroWebAudio/Example5/js/Sequencer.js:21-51 | from a fresh start, the take is exactly the hits offset by the start time |
| Recorder.RecordingSession | Seance4_IntroWebAudio/Example5/js/Sequencer.js:21-51 | start, hits on a monotonic clock, stop: the new sequence has one non-negative, time-ordered event per hit and lasts the last offset plus 0.5 s |
| Recorder.NameRepeatsAfterDelete | Seance4_IntroWebAudio/Example5/js/Sequencer.js:36-38 | from an idle, empty recorder: record, record, delete the first, record; the two remaining sequences are both `Sequence 2 (1 hits)` |
| Decimal.NatToString | Seance4_IntroWebAudio/Example5/js/Sequencer.js:38 | the `${n}` rendering is a non-empty digit string without a leading zero |
| Decimal.ParsePrinted | Seance4_IntroWebAudio/Example5/js/Sequencer.js:38 | reading the digits back gives the number |
| Decimal.PrintInjective | Seance4_IntroWebAudio/Example5/js/Sequencer.js:38 | distinct numbers render differently, so names differ when counts differ |
| Audio.TrimFor | Seance4_IntroWebAudio/Example5/js/Sequencer.js:75-77 | nothing exactly when the pad has no buffer; a loaded pad with a stored trim gets that trim, one without gets `[0, duration]` |
| LivePlayback.StopPlayback | Seance4_IntroWebAudio/Example5/js/Sequencer.js:53-59 | every timer the handle list owns is cleared, the others stay pending, the handle becomes null, and the invariant is kept |
| LivePlayback.EventDelayMs | Seance4_IntroWebAudio/Example5/js/Sequencer.js:69-73 | an event's delay is `max(0, (0.05 + t) * 1000)` ms whatever the clock reads, so never negative |
| LivePlayback.DelaysFollowEventOrder | Seance4_IntroWebAudio/Example5/js/Sequencer.js:69-73 | an earlier offset never gets a longer delay |
| LivePlayback.SchedulePlays | Seance4_IntroWebAudio/Example5/js/Sequencer.js:70-84 | scheduling creates one timer per event with the event's delay and pad, then the auto-stop at `duration * 1000 + 100` ms, under the distinct fresh ids `nextId`, `nextId + 1`, ... that the handle lists in order |
| LivePlayback.ScheduleAfterStop | Seance4_IntroWebAudio/Example5/js/Sequencer.js:62-84 | after stop and schedule, no timer the old handle owned is still pending, and the invariant is kept |
| LivePlayback.PlaySequence | Seance4_IntroWebAudio/Example5/js/Sequencer.js:61-85 | no sequence means stop only; a sequence is played in full, one distinct fresh id per timer; no timer of the previous playback survives; the invariant is kept |
| LivePlayback.Fire | Seance4_IntroWebAudio/Example5/js/Sequencer.js:74-83 | a cleared id does nothing; an event timer triggers its pad with the trim read at firing time, or nothing when the pad is unloaded; the auto-stop stops playback |
| LivePlayback.PlayCancelsPrevious | Seance4_IntroWebAudio/Example5/js/Sequencer.js:61-62 | no timer owned before a new `playSequence` ever fires afterwards |
| LivePlayback.StopIdempotent | Seance4_IntroWebAudio/Example5/js/Sequencer.js:53-59 | stopping twice is stopping once |
| OfflineRender.Ceil | Seance4_IntroWebAudio/Example5/js/Sequencer.js:120 | `Math.ceil`: the least integer not below the argument |
| OfflineRender.SourceFor | Seance4_IntroWebAudio/Example5/js/Sequencer.js:133-147 | no source exactly when the pad has no buffer; otherwise one at the event's time, for that pad, at least 0.01 s long, reading from the stored trim's start for `max(0.01, end - start)` or, untrimmed, from 0 for `max(0.01, duration)` |
| OfflineRender.ScheduleEvents | Seance4_IntroWebAudio/Example5/js/Sequencer.js:133-148 | at most one source per event, each for a loaded pad and at least 0.01 s long |
| OfflineRender.SourcesFor | Seance4_IntroWebAudio/Example5/js/Sequencer.js:135-147 | one source exactly when the event's pad is loaded |
| OfflineRender.ScheduleSkipsOnlyMissing | Seance4_IntroWebAudio/Example5/js/Sequencer.js:136 | the plan equals the plan of the loaded events alone |
| OfflineRender.ScheduleAllLoaded | Seance4_IntroWebAudio/Example5/js/Sequencer.js:133-148 | with every pad loaded there is one source per event, in order, at the event's own time |
| OfflineRender.ScheduleCount | Seance4_IntroWebAudio/Example5/js/Sequencer.js:133-148 | the number of sources is the number of events whose pad is loaded |
| OfflineRender.ScheduleConcat | Seance4_IntroWebAudio/Example5/js/Sequencer.js:133 | the plan of two event lists in turn is the two plans in turn |
| OfflineRender.ScheduleTimesBounded | Seance4_IntroWebAudio/Example5/js/Sequencer.js:147 | every source starts at the time of one of its events, so at or after any lower bound on them |
| OfflineRender.ScheduleKeepsTimeOrder | Seance4_IntroWebAudio/Example5/js/Sequencer.js:133-148 | a time-ordered recording gives sources in start order |
| OfflineRender.PlanRender | Seance4_IntroWebAudio/Example5/js/Sequencer.js:111-148 | without an offline context the export fails; otherwise it fails with a `RangeError` exactly when some scheduled source has a negative start time or buffer offset, and else gives a stereo plan at the live rate with `ceil((duration + 0.5) * rate)` frames and the scheduled sources |
| OfflineRender.ScheduleOffsetsNonneg | Seance4_IntroWebAudio/Example5/js/Sequencer.js:142-147 | with no stored trim starting before zero, every source's buffer offset is non-negative |
| OfflineRender.PlanRenderSucceeds | Seance4_IntroWebAudio/Example5/js/Sequencer.js:133-148 | a take with non-negative event times and trims starting at or after zero always exports |
| OfflineRender.NegativeTrimFailsExport | Seance4_IntroWebAudio/Example5/js/Sequencer.js:142-147 | one event on a loaded pad whose trim starts before zero makes the export fail with the `RangeError` |
| OfflineRender.LivePlaybackMatchesRender | Seance4_IntroWebAudio/Example5/js/Sequencer.js:75-78 | the live trigger of event `k` and its render source exist together and play the same buffer offset and clamped length |
| OfflineRender.ExportScenario | Seance4_IntroWebAudio/Example5/js/Sequencer.js:111-148 | two hits half a second apart export as 66150 frames at 44100 Hz, with a trim edited after recording in use |
| WavEncoder.ReadU16OfU16 | Seance4_IntroWebAudio/Example5/js/Sequencer.js:206-211 | reading a 16-bit field gives back the value modulo 2^16 |
| WavEncoder.ReadU32OfU32 | Seance4_IntroWebAudio/Example5/js/Sequencer.js:200-215 | reading a 32-bit field gives back the value modulo 2^32 |
| WavEncoder.Ascii | Seance4_IntroWebAudio/Example5/js/Sequencer.js:189-193 | one byte per character, equal to that character's code |
| WavEncoder.Trunc | Seance4_IntroWebAudio/Example5/js/Sequencer.js:229 | truncation toward zero |
| WavEncoder.ToPcm16 | Seance4_IntroWebAudio/Example5/js/Sequencer.js:227-229 | the code lies in `-32768 .. 32767` and keeps the sample's sign; 1 and above give 32767, -1 and below give -32768; in between it is `s * 32767` (non-negative) or `s * 32768` (negative) truncated toward zero |
| WavEncoder.ToPcm16Monotone | Seance4_IntroWebAudio/Example5/js/Sequencer.js:227-229 | a louder sample never gets a smaller code |
| WavEncoder.ToPcm16Truncates | Seance4_IntroWebAudio/Example5/js/Sequencer.js:228-229 | 0.5 becomes 16383 and -0.5 becomes -16384 |
| WavEncoder.ReadI16 | Seance4_IntroWebAudio/Example5/js/Sequencer.js:229 | the signed reading lies in `-32768 .. 32767` |
| WavEncoder.ReadI16OfI16 | Seance4_IntroWebAudio/Example5/js/Sequencer.js:229 | reading a stored 16-bit sample gives it back |
| WavEncoder.InterleaveAt | Seance4_IntroWebAudio/Example5/js/Sequencer.js:217-224 | sample `j` of frame `i` sits at position `i * n + j` |
| WavEncoder.InterleaveChannels | Seance4_IntroWebAudio/Example5/js/Sequencer.js:217-224 | the nested loop produces the interleaved samples |
| WavEncoder.SampleBytesAt | Seance4_IntroWebAudio/Example5/js/Sequencer.js:226-231 | sample `k` is stored at bytes `2k`, `2k + 1` |
| WavEncoder.ConvertSamples | Seance4_IntroWebAudio/Example5/js/Sequencer.js:226-231 | the conversion loop produces the converted samples, two bytes each, in order |
| WavEncoder.WavSampleAt | Seance4_IntroWebAudio/Example5/js/Sequencer.js:217-231 | sample `j` of frame `i` is the 16-bit code at byte `44 + 2 * (i * n + j)` |
| WavEncoder.EncodeWav | Seance4_IntroWebAudio/Example5/js/Sequencer.js:177-234 | the encoder's two loops give exactly the header followed by the converted interleaved samples, `44 + dataSize` bytes |
| WavEncoder.DecodeWav | Seance4_IntroWebAudio/Example5/js/Sequencer.js:196-215 | a reader for exactly this layout: it accepts only a file with a canonical header for its length and returns one sample per two data bytes |
| WavEncoder.HeaderFields | Seance4_IntroWebAudio/Example5/js/Sequencer.js:196-215 | each header field reads back as written, modulo its width |
| WavEncoder.HeaderAccepted | Seance4_IntroWebAudio/Example5/js/Sequencer.js:196-215 | when every field fits, the written header is canonical and its fields read back unchanged |
| WavEncoder.DecodeEncoded | Seance4_IntroWebAudio/Example5/js/Sequencer.js:177-234 | round trip: decoding the encoded file gives the channel count, the rate and the interleaved samples' 16-bit codes |
| WavEncoder.DecodeCanonical | Seance4_IntroWebAudio/Example5/js/Sequencer.js:196-215 | a canonical header followed by data decodes to its fields and the data's samples |
| WavEncoder.OneFrameExample | Seance4_IntroWebAudio/Example5/js/Sequencer.js:177-234 | one stereo frame `[1, -1]` at 44100 Hz: a 48-byte file that reads back as `[32767, -32768]` |
| WavEncoder.OneFrameBytes | Seance4_IntroWebAudio/Example5/js/Sequencer.js:226-231 | that frame's data bytes are `FF 7F 00 80` |
| WaveformCanvas.SecToX | Seance4_IntroWebAudio/Example5/js/WaveformCanvas.js:46-51 | 0 without a buffer; a time within the duration maps into `0 .. width` |
| WaveformCanvas.XToSec | Seance4_IntroWebAudio/Example5/js/WaveformCanvas.js:52-57 | 0 without a buffer; a non-negative offset maps to a non-negative time |
| WaveformCanvas.XToSecOfSecToX | Seance4_IntroWebAudio/Example5/js/WaveformCanvas.js:46-57 | on a canvas at least one pixel wide, seconds to pixels and back is the identity |
| WaveformCanvas.SecToXOfXToSec | Seance4_IntroWebAudio/Example5/js/WaveformCanvas.js:46-57 | pixels to seconds and back is the identity |
| WaveformCanvas.SetRegion | Seance4_IntroWebAudio/Example5/js/WaveformCanvas.js:88-94 | ignored without a buffer; otherwise a start below 0 becomes 0 and one past the duration becomes the duration, an end past the duration becomes `max(start + 0.01, duration)`, an end closer than 0.01 s to the start becomes `start + 0.01`, and in-range values are kept |
| WaveformCanvas.SetRegionKeepsValid | Seance4_IntroWebAudio/Example5/js/WaveformCanvas.js:88-94 | a region that obeys the rules is stored exactly, and setting it twice is setting it once |
| WaveformCanvas.SetRegionCanExceedDuration | Seance4_IntroWebAudio/Example5/js/WaveformCanvas.js:91-92 | on a 1 s buffer, `setRegion(1, 1)` stores an end of 1.01 s, past the duration |
| WaveformCanvas.SetBuffer | Seance4_IntroWebAudio/Example5/js/WaveformCanvas.js:60-81 | no buffer gives region 0..0; a buffer gives the whole buffer, then `setRegion` applies when a numeric region is passed |
| WaveformCanvas.SetBufferWithRegion | Seance4_IntroWebAudio/Example5/js/WaveformCanvas.js:72-77 | passing a region is loading the buffer, then calling `setRegion` |
| WaveformCanvas.SetPlayhead | Seance4_IntroWebAudio/Example5/js/WaveformCanvas.js:96-99 | only the playhead changes |
| WaveformCanvas.ClearPlayhead | Seance4_IntroWebAudio/Example5/js/WaveformCanvas.js:84-86 | the playhead becomes null and the buffer, region and drag are unchanged |
| WaveformCanvas.ClampX | Seance4_IntroWebAudio/Example5/js/WaveformCanvas.js:191 | the offset within the overlay, kept as is when it lies in `[0, width]`, 0 left of the overlay and the width right of it |
| WaveformCanvas.OnDown | Seance4_IntroWebAudio/Example5/js/WaveformCanvas.js:188-203 | without a buffer nothing; within 8 px of the start handle it grabs the start, else within 8 px of the end handle it grabs the end, else the drag stays and the playhead moves to the pressed time; the region never changes |
| WaveformCanvas.ScrubLandsUnderCursor | Seance4_IntroWebAudio/Example5/js/WaveformCanvas.js:192-200 | a press away from both handles puts the playhead exactly at the pressed pixel |
| WaveformCanvas.OnMove | Seance4_IntroWebAudio/Example5/js/WaveformCanvas.js:205-218 | no drag means no change and no notification; dragging the start keeps it 0.01 s before the end, dragging the end keeps it 0.01 s after the start, and the new region is reported |
| WaveformCanvas.OnUp | Seance4_IntroWebAudio/Example5/js/WaveformCanvas.js:220-222 | releases the handle and keeps the region |
| WaveformCanvas.DragKeepsRegionValid | Seance4_IntroWebAudio/Example5/js/WaveformCanvas.js:205-218 | a drag inside a valid region on a buffer at least 0.0001 s long keeps the region valid |
| WaveformCanvas.DragStartCanGoNegative | Seance4_IntroWebAudio/Example5/js/WaveformCanvas.js:211-212 | on a buffer shorter than 0.01 s, dragging the start to 0 stores a negative start |
| SamplerGui.Initial | Seance4_IntroWebAudio/Example5/js/SamplerGUI.js:3-11 | the constructor's state (nothing selected, no trims, no source) followed by the first `initPads(count)` (lines 38-51): `count` pads, all disabled |
| SamplerGui.MarkLoaded | Seance4_IntroWebAudio/Example5/js/SamplerGUI.js:58-62 | an existing pad becomes enabled and loaded, its error hidden; other pads and out-of-range indices are untouched |
| SamplerGui.MarkError | Seance4_IntroWebAudio/Example5/js/SamplerGUI.js:64-68 | an existing pad becomes disabled and failed, its error shown; other pads and out-of-range indices are untouched |
| SamplerGui.MarksConsistent | Seance4_IntroWebAudio/Example5/js/SamplerGUI.js:58-68 | a marked pad is never both loaded and failed; the latest mark wins; each mark is idempotent |
| SamplerGui.SetActivePad | Seance4_IntroWebAudio/Example5/js/SamplerGUI.js:70-73 | exactly pad `i`, if it exists, is active; nothing else on the pads changes |
| SamplerGui.OnRegionChange | Seance4_IntroWebAudio/Example5/js/SamplerGUI.js:18-20 | with a selected pad its trim becomes the region; the other trims and the rest of the state are untouched |
| SamplerGui.Drag | Seance4_IntroWebAudio/Example5/js/WaveformCanvas.js:205-218 | the waveform becomes exactly what `_onMove` gives; while a handle is held the new region is stored as the selected pad's trim; no other trim and no other field changes |
| SamplerGui.DragThenPlay | Seance4_IntroWebAudio/Example5/js/SamplerGUI.js:18-20 | after a drag on the selected loaded pad, the next preview triggers exactly the region the editor shows |
| SamplerGui.SelectPad | Seance4_IntroWebAudio/Example5/js/SamplerGUI.js:86-105 | a failed load marks the pad failed and selects nothing, the other pads untouched; otherwise the pad becomes current and the only active one, the other pads keep their state, and the waveform shows its buffer with its trim or the whole buffer; nothing but buffers, pads, current index and waveform changes |
| SamplerGui.LoadPad | Seance4_IntroWebAudio/Example5/js/SamplerGUI.js:87-96 | an existing buffer skips loading; otherwise a good load stores the buffer and marks the pad loaded and enabled, a failed one marks it failed and disabled, and no other pad changes |
| SamplerGui.SelectShowsTrim | Seance4_IntroWebAudio/Example5/js/SamplerGUI.js:100-103 | after a selection the waveform shows the stored trim when it fits the buffer, and the whole buffer when there is none |
| SamplerGui.OnPad | Seance4_IntroWebAudio/Example5/js/SamplerGUI.js:75-83 | select, record the hit exactly as `recordHit` does (only while recording), and trigger the pad with its trim or the waveform region; nothing else changes beyond the selection |
| SamplerGui.PlayAfterPadHitReplays | Seance4_IntroWebAudio/Example5/js/SamplerGUI.js:75-83 | pressing play after a pad hit whose sample is available triggers the same pad and region as the hit |
| SamplerGui.PlayCurrent | Seance4_IntroWebAudio/Example5/js/SamplerGUI.js:107-128 | nothing without a current loaded pad; otherwise the preview plays the region from `now + 0.005` for `max(0.01, end - start)` and the animation starts; only the preview fields change |
| SamplerGui.Progress | Seance4_IntroWebAudio/Example5/js/SamplerGUI.js:120 | the ratio lies in `0 .. 1`, is 0 before the start, 1 after the end, and proportional in between |
| SamplerGui.PlayheadAt | Seance4_IntroWebAudio/Example5/js/SamplerGUI.js:121 | the playhead lies within the region, at its start for ratio 0 and its end for ratio 1 |
| SamplerGui.Tick | Seance4_IntroWebAudio/Example5/js/SamplerGUI.js:119-124 | an animation frame sets the playhead to `start + ratio * (end - start)` for the clamped progress ratio, within the region, at its end once playback time is over, and keeps animating only while the ratio is below 1 and a source plays; only the playhead and the animation flag change |
| SamplerGui.TickPlayheadMonotone | Seance4_IntroWebAudio/Example5/js/SamplerGUI.js:119-121 | a later frame never draws the playhead further left |
| SamplerGui.OnEnded | Seance4_IntroWebAudio/Example5/js/SamplerGUI.js:127 | forgets the source only if it is still the current one, but always stops the animation and clears the playhead; nothing else changes |
| SamplerGui.StaleEndStopsNewPreview | Seance4_IntroWebAudio/Example5/js/SamplerGUI.js:110-127 | the end of a replaced preview stops the newer preview's animation while that preview still plays |
| SamplerGui.StopCurrent | Seance4_IntroWebAudio/Example5/js/SamplerGUI.js:130-141 | the preview and its animation stop and the playhead is cleared, sequence playback stops with every owned timer cleared, and everything else (trims, region, pads, recorder) stays |
| SamplerGui.StartRecording | Seance4_IntroWebAudio/Example5/js/Sequencer.js:21-29 | a start from idle stops the preview and playback first and clears the playhead, then records from `now`; only the preview, session, recorder and playhead change |
| SamplerGui.PlaySequence | Seance4_IntroWebAudio/Example5/js/Sequencer.js:61-85 | the session plays the sequence; a real sequence also stops the preview and clears the playhead, a missing one leaves the waveform; nothing else changes |
| SamplerGui.FireTimer | Seance4_IntroWebAudio/Example5/js/Sequencer.js:74-78 | a firing timer triggers what the session firing with the GUI's buffers and current trims triggers, and changes nothing but the session |
| SamplerGui.PreviewMatchesSequence | Seance4_IntroWebAudio/Example5/js/SamplerGUI.js:112-113 | after a selection, previewing a pad and a sequence timer for it trigger the same region |
| PresetApi.Get | Seance2/ExampleRESTEndpointCorrige/src/app.mjs:67 | a field is present exactly on an object that holds the key |
| PresetApi.Lower | Seance2/ExampleRESTEndpointCorrige/src/app.mjs:67 | same length, each ASCII capital lowered, everything else kept |
| PresetApi.LowerIdempotent | Seance2/ExampleRESTEndpointCorrige/src/app.mjs:67 | lowering twice is lowering once |
| PresetApi.ContainsAt | Seance2/ExampleRESTEndpointCorrige/src/app.mjs:75-78 | `includes` holds exactly when the needle occurs at some position |
| PresetApi.LowerOf | Seance2/ExampleRESTEndpointCorrige/src/app.mjs:67-78 | `?.toLowerCase()` throws exactly on a present value that is neither null nor a string |
| PresetApi.SomeSample | Seance2/ExampleRESTEndpointCorrige/src/app.mjs:76-79 | a true answer comes from some matching sample; all samples false gives false |
| PresetApi.FilterTry | Seance2/ExampleRESTEndpointCorrige/src/app.mjs:67-81 | fails exactly when the predicate throws on some element; otherwise keeps the accepted ones, in order |
| PresetApi.SearchIsFilter | Seance2/ExampleRESTEndpointCorrige/src/app.mjs:61-86 | a successful search is the input filtered by the conjunction of the active tests: a subsequence that holds a preset iff the input does and every test accepts it |
| PresetApi.SearchFiltersInTurn | Seance2/ExampleRESTEndpointCorrige/src/app.mjs:67-82 | the search is the three filters one after the other, an absent one keeping everything |
| PresetApi.NoFilterKeepsAll | Seance2/ExampleRESTEndpointCorrige/src/app.mjs:67-72 | with no parameter given the whole list is answered |
| PresetApi.SomeSampleWellTyped | Seance2/ExampleRESTEndpointCorrige/src/app.mjs:76-79 | well-typed samples never throw |
| PresetApi.SearchWellTyped | Seance2/ExampleRESTEndpointCorrige/src/app.mjs:61-86 | over well-typed presets the search always answers |
| PresetApi.SomeSampleMeans | Seance2/ExampleRESTEndpointCorrige/src/app.mjs:76-79 | on well-typed samples, `some` answers whether one sample's name or url contains the needle |
| PresetApi.SampleTestMeans | Seance2/ExampleRESTEndpointCorrige/src/app.mjs:78 | one well-typed sample matches iff it is truthy and its name or url contains the needle |
| PresetApi.QueryTestMeans | Seance2/ExampleRESTEndpointCorrige/src/app.mjs:72-81 | on a well-typed preset, `q` matches iff the name or a sample's name or url contains it |
| PresetApi.TypeTestMeans | Seance2/ExampleRESTEndpointCorrige/src/app.mjs:67 | the `type` test is case-insensitive string equality |
| PresetApi.SearchKeepsExactly | Seance2/ExampleRESTEndpointCorrige/src/app.mjs:61-86 | over well-typed presets a preset is answered iff it is listed and matches the type case-insensitively, has the asked factory flag, and contains `q` in its name or samples, each only when given |
| PresetApi.LowerParam | Seance2/ExampleRESTEndpointCorrige/src/app.mjs:67-73 | a given parameter is lower-cased and a missing one stays missing |
| PresetApi.SearchIgnoresCase | Seance2/ExampleRESTEndpointCorrige/src/app.mjs:67-73 | lower-casing the `type` parameter, the `q` parameter or both, whichever is given, gives the same answer |
| PresetApi.Overlay | Seance2/ExampleRESTEndpointCorrige/src/app.mjs:109-115 | every submitted field wins; `id`, `slug` and `updatedAt` are added only where not submitted; the submitted name is kept |
| PresetApi.Post | Seance2/ExampleRESTEndpointCorrige/src/app.mjs:98-119 | 400 iff validation fails, 409 iff valid and the file exists, else 201 with the record written under its file; anything but 201 writes nothing |
| PresetApi.PostKeepsSubmittedFields | Seance2/ExampleRESTEndpointCorrige/src/app.mjs:108-115 | a created record keeps every submitted field and adds generated ones only where missing |
| PresetApi.Rename | Seance2/ExampleRESTEndpointCorrige/src/app.mjs:155-156 | the new file holds the record, the old one is removed when the name changed, other files are untouched |
| PresetApi.Put | Seance2/ExampleRESTEndpointCorrige/src/app.mjs:136-159 | 404 iff the old file is missing, 400 iff it exists and validation fails, else 200: the submitted fields win, a truthy stored id is kept, `slug` and `updatedAt` default to the slug and the current time, and the record moves to the new name |
| PresetApi.PatchRecord | Seance2/ExampleRESTEndpointCorrige/src/app.mjs:167-174 | patched fields win, other stored fields stay, the name falls back when null, `slug` and `updatedAt` are always recomputed, and no key appears that neither the record nor the patch had besides those two |
| PresetApi.Patch | Seance2/ExampleRESTEndpointCorrige/src/app.mjs:162-182 | 404 iff the old file is missing, 400 iff the merged record fails partial validation, else 200 with the patched record moved to its name's file |
| PresetApi.SubmittedSlugPostVersusPatch | Seance2/ExampleRESTEndpointCorrige/src/app.mjs:109-115 | a submitted slug survives POST but PATCH recomputes it from the name |
| PresetApi.FirstInvalid | Seance2/ExampleRESTEndpointCorrige/src/app.mjs:203-205 | every preset before the position is valid, and the one at it, if any, is not |
| PresetApi.WriteAllSnoc | Seance2/ExampleRESTEndpointCorrige/src/app.mjs:203-210 | writing one more preset is one more file update |
| PresetApi.RecordSlug | Seance2/ExampleRESTEndpointCorrige/src/app.mjs:207-209 | the slug reported is the submitted one, else `slugify(name)` |
| PresetApi.SeedSlugs | Seance2/ExampleRESTEndpointCorrige/src/app.mjs:209 | one slug per written preset, in order |
| PresetApi.Seed | Seance2/ExampleRESTEndpointCorrige/src/app.mjs:197-213 | a non-array body gets 400 with nothing written; otherwise the presets before the first invalid one are written in order and counted, with their slugs; 201 iff all were valid, else 400 |
| PresetApi.WriteAllStores | Seance2/ExampleRESTEndpointCorrige/src/app.mjs:207-208 | a seeded preset is found under its file unless a later one of the batch used the same file |
| PresetApi.WriteAllLeavesOthers | Seance2/ExampleRESTEndpointCorrige/src/app.mjs:203-210 | files no seeded preset names keep their contents |

## Left out

- Drawing on the canvases, status texts, button enabling, progress-bar widths and
  `renderSequences` are DOM output with no state of their own.
- The audio engine (`trigger`, `loadOne`, buffer sources, the offline
  `startRendering` mix) is outside the core. Trigger calls are returned as
  values. A load is an outcome parameter. Of a buffer source's `start`, only the
  `RangeError` the Web Audio API raises for a negative argument is modelled
  (`OfflineRender.PlanRender`); a failure of `startRendering` itself, which the
  `try` catches, is not.
- The clock, `Date.now()`, `crypto.randomUUID()` and ISO timestamps are
  parameters. Each call reads the clock once, so `playSequence`'s two
  `currentTime` reads are one value.
- Samples are reals, not 32-bit floats. The `Float32Array` rounding before the
  16-bit conversion is not modelled.
- `setTimeout` callbacks and `requestAnimationFrame` are state transitions
  (`Fire`, `Tick`) that a caller applies. Their scheduling order across the event
  loop is not modelled.
- The file system of the preset service is a map from file path to JSON. `utils.mjs`
  (`validatePreset`, `slugify`, `safePresetPath`) is not part of this model; its
  functions are parameters.
- `GET /api/presets/:name`, `DELETE`, the upload route and the health check only
  read or remove files through those helpers and are not modelled.
- `toLowerCase` is modelled on ASCII letters only; Unicode case mapping is out
  of scope.
- A stored preset that is not an object is read as having no fields. A JSON array
  or string body is spread as no fields.
- The encoder truncates each scaled sample toward zero (`setInt16`); it does not
  round (`WavEncoder.ToPcm16Truncates`).
- The little-endian writes store the samples `[1, -1]` as the bytes `FF 7F 00 80`
  (`WavEncoder.OneFrameBytes`).
- `setRegion` can store an end past the duration
  (`WaveformCanvas.SetRegionCanExceedDuration`), and a drag can store a negative
  start (`WaveformCanvas.DragStartCanGoNegative`).
- The encoder checks none of its arguments, so the model has no error case for it.
- `selectPad` and `onPad` await `loadOne`, so other handlers can run between the
  `loading` mark and the selection. `SamplerGui.SelectPad` and `SamplerGui.OnPad`
  treat a press as one step that completes when the load does, and a recorded hit
  is stamped with the clock value at that completion.
- `main.js` never attaches a sequencer, so the GUI's recording path is inert
  there. The model assumes the sequencer is attached.
- WavEncoder.EncodeWav: its ensures give the whole file as `WavBytes` and its
  length. The position of each sample is stated separately, by
  `WavEncoder.WavSampleAt`.
- WavEncoder.DecodeEncoded: the round trip needs every field to fit its width
  (channels and block align below 2^16, rate and sizes below 2^32). Larger
  values wrap as in the code and are not read back.

=== FILE: common.dfy ===
/** Shared vocabulary of the model: optional values, results, clamps on
    real-valued times and order-preserving filters over sequences. */
module Common {

  /** JavaScript's `null`/`undefined` versus a present value. */
  datatype Option<+T> = None | Some(value: T)

  /** A computation that either produces a value or reports an error kind. */
  datatype Result<+T, +E> = Ok(value: T) | Err(error: E)

  /** `Math.max(a, b)` on times, which are modelled as reals. */
  function Max(a: real, b: real): (r: real)
    ensures r >= a && r >= b
    ensures r == a || r == b
  {
    if a >= b then a else b
  }

  /** `Math.min(a, b)` on reals. */
  function Min(a: real, b: real): (r: real)
    ensures r <= a && r <= b
    ensures r == a || r == b
  {
    if a <= b then a else b
  }

  /** `Math.max(lo, Math.min(x, hi))`, the clamp the source writes inline. */
  function Clamp(x: real, lo: real, hi: real): (r: real)
    requires lo <= hi
    ensures lo <= r <= hi
    ensures lo <= x <= hi ==> r == x
    ensures x < lo ==> r == lo
    ensures hi < x ==> r == hi
  {
    Max(lo, Min(x, hi))
  }

  /** `Array.prototype.filter` with a pure predicate. */
  function Filter<T(!new)>(s: seq<T>, p: T -> bool): (r: seq<T>)
    ensures |r| <= |s|
    ensures forall x :: x in r <==> x in s && p(x)
  {
    if |s| == 0 then []
    else (if p(s[0]) then [s[0]] else []) + Filter(s[1..], p)
  }

  /** `a` is `b` with some elements removed and the rest kept in order. */
  predicate IsSubseq<T(==)>(a: seq<T>, b: seq<T>)
    decreases |b|
  {
    if |a| == 0 then true
    else if |b| == 0 then false
    else if a[0] == b[0] then IsSubseq(a[1..], b[1..])
    else IsSubseq(a, b[1..])
  }

  lemma {:induction false} SubseqRefl<T>(a: seq<T>)
    ensures IsSubseq(a, a)
    decreases |a|
  {
    if |a| > 0 {
      SubseqRefl(a[1..]);
    }
  }

  /** A filter only drops elements: its result is an order-preserving
      subsequence of its input. */
  lemma {:induction false} FilterIsSubseq<T(!new)>(s: seq<T>, p: T -> bool)
    ensures IsSubseq(Filter(s, p), s)
    decreases |s|
  {
    if |s| > 0 {
      FilterIsSubseq(s[1..], p);
      var rest := Filter(s[1..], p);
      if p(s[0]) {
        assert Filter(s, p) == [s[0]] + rest;
        assert ([s[0]] + rest)[1..] == rest;
      } else {
        assert Filter(s, p) == rest;
        SubseqDropHead(rest, s);
      }
    }
  }

  /** If `a` embeds in the tail of `b`, it embeds in `b`. */
  lemma {:induction false} SubseqDropHead<T>(a: seq<T>, b: seq<T>)
    requires |b| > 0
    requires IsSubseq(a, b[1..])
    ensures IsSubseq(a, b)
    decreases |b|, |a|
  {
    if |a| > 0 && a[0] == b[0] {
      // a[1..] embeds in b[1..] because a does
      SubseqTail(a, b[1..]);
    }
  }

  /** Dropping the head of an embedded sequence keeps it embedded. */
  lemma {:induction false} SubseqTail<T>(a: seq<T>, b: seq<T>)
    requires |a| > 0
    requires IsSubseq(a, b)
    ensures IsSubseq(a[1..], b)
    decreases |b|, |a| + 1
  {
    if a[0] == b[0] {
      SubseqDropHead(a[1..], b);
    } else {
      SubseqTail(a, b[1..]);
      SubseqDropHead(a[1..], b);
    }
  }

  /** A predicate that holds everywhere keeps the whole input. */
  lemma {:induction false} FilterKeepsAll<T(!new)>(s: seq<T>, p: T -> bool)
    requires forall x :: x in s ==> p(x)
    ensures Filter(s, p) == s
    decreases |s|
  {
    if |s| > 0 {
      FilterKeepsAll(s[1..], p);
    }
  }

  /** Filtering twice with the same predicate is filtering once. */
  lemma FilterIdempotent<T(!new)>(s: seq<T>, p: T -> bool)
    ensures Filter(Filter(s, p), p) == Filter(s, p)
  {
    FilterKeepsAll(Filter(s, p), p);
  }

  /** Filtering twice is filtering once by both predicates. */
  lemma {:induction false} FilterFilter<T(!new)>(s: seq<T>, p: T -> bool, q: T -> bool)
    ensures Filter(Filter(s, p), q) == Filter(s, x => p(x) && q(x))
    decreases |s|
  {
    if |s| > 0 {
      var both := x => p(x) && q(x);
      FilterFilter(s[1..], p, q);
      var rest := Filter(s[1..], p);
      assert Filter(s, both) == (if both(s[0]) then [s[0]] else []) + Filter(s[1..], both);
      if p(s[0]) {
        var ps := [s[0]] + rest;
        assert Filter(s, p) == ps;
        assert ps[0] == s[0] && ps[1..] == rest;
        assert Filter(ps, q) == (if q(s[0]) then [s[0]] else []) + Filter(rest, q);
      } else {
        assert Filter(s, p) == rest;
      }
    }
  }

  /** Only the predicate's values on the elements matter. */
  lemma {:induction false} FilterCongruent<T(!new)>(s: seq<T>, p: T -> bool, q: T -> bool)
    requires forall k :: 0 <= k < |s| ==> p(s[k]) == q(s[k])
    ensures Filter(s, p) == Filter(s, q)
    decreases |s|
  {
    if |s| > 0 {
      FilterCongruent(s[1..], p, q);
    }
  }

  /** Three filters in turn are one filter by their conjunction. */
  lemma FilterThrice<T(!new)>(s: seq<T>, p: T -> bool, q: T -> bool, r: T -> bool, all: T -> bool)
    requires forall x :: all(x) == (p(x) && q(x) && r(x))
    ensures Filter(Filter(Filter(s, p), q), r) == Filter(s, all)
  {
    FilterFilter(s, p, q);
    var pq := x => p(x) && q(x);
    FilterFilter(s, pq, r);
    FilterCongruent(s, x => pq(x) && r(x), all);
  }

  /** A filter keeps every occurrence of an accepted element and none of a
      rejected one. */
  lemma {:induction false} FilterCount<T(!new)>(s: seq<T>, p: T -> bool, x: T)
    ensures multiset(Filter(s, p))[x] == if p(x) then multiset(s)[x] else 0
  {
    if |s| > 0 {
      FilterCount(s[1..], p, x);
      assert s == [s[0]] + s[1..];
      assert multiset(s) == multiset{s[0]} + multiset(s[1..]);
    }
  }

  /** Filtering distributes over concatenation. */
  lemma {:induction false} FilterConcat<T(!new)>(a: seq<T>, b: seq<T>, p: T -> bool)
    ensures Filter(a + b, p) == Filter(a, p) + Filter(b, p)
    decreases |a|
  {
    if |a| > 0 {
      assert (a + b)[1..] == a[1..] + b;
      FilterConcat(a[1..], b, p);
    } else {
      assert a + b == b;
    }
  }
}

/** The audio engine's state as the sampler core sees it: decoded buffers by
    pad index and per-pad trim regions. */
module Audio {
  import opened Common

  /** A length in seconds; WebAudio never reports a negative duration. */
  type Duration = d: real | d >= 0.0

  /** A decoded sample; only its duration matters to the core. */
  datatype AudioBuffer = AudioBuffer(duration: Duration)

  /** A trim region `{ startSec, endSec }`. */
  datatype Region = Region(startSec: real, endSec: real)

  /** `engine.buffers`: an index with nothing loaded reads as `undefined`. */
  type Buffers = map<int, AudioBuffer>

  /** The GUI's `trims` map, written only by the trim editor. */
  type Trims = map<int, Region>

  /** One call `engine.trigger(index, { startSec, endSec })`. */
  datatype Trigger = Trigger(index: int, region: Region)

  /** The whole buffer as a region, `{ startSec: 0, endSec: buf.duration }`. */
  function FullRegion(b: AudioBuffer): Region
  {
    Region(0.0, b.duration)
  }

  /** `trims.get(i) || fallback`: a stored trim wins, else the fallback. */
  function TrimOr(trims: Trims, i: int, fallback: Region): Region
  {
    if i in trims then trims[i] else fallback
  }

  /** The region the sequencer plays for pad `i`, read at the moment of use:
      nothing when the pad has no buffer, else the stored trim or the full
      buffer. Both live playback and offline rendering go through this. */
  function TrimFor(buffers: Buffers, trims: Trims, i: int): (r: Option<Region>)
    ensures r.None? <==> i !in buffers
    ensures i in buffers && i in trims ==> r == Some(trims[i])
    ensures i in buffers && i !in trims ==> r == Some(Region(0.0, buffers[i].duration))
  {
    if i !in buffers then None
    else Some(TrimOr(trims, i, FullRegion(buffers[i])))
  }
}

=== FILE: decimal.dfy ===
/** Decimal text of a natural number, as a JavaScript template literal
    `${n}` prints an integer-valued Number, and the inverse reading. */
module Decimal {

  predicate IsDigit(c: char)
  {
    '0' <= c <= '9'
  }

  function DigitChar(d: nat): (c: char)
    requires d < 10
    ensures IsDigit(c)
    ensures c as int - '0' as int == d
  {
    ('0' as int + d) as char
  }

  function DigitValue(c: char): nat
    requires IsDigit(c)
  {
    c as int - '0' as int
  }

  /** Shortest decimal text of `n`: digits only, no leading zero. */
  function NatToString(n: nat): (s: string)
    ensures |s| >= 1
    ensures forall i :: 0 <= i < |s| ==> IsDigit(s[i])
    ensures s[0] == '0' ==> n == 0
  {
    if n < 10 then [DigitChar(n)]
    else NatToString(n / 10) + [DigitChar(n % 10)]
  }

  /** Reads a string of decimal digits, most significant first. */
  function ParseDigits(s: string): nat
    requires forall i :: 0 <= i < |s| ==> IsDigit(s[i])
  {
    if |s| == 0 then 0
    else ParseDigits(s[..|s| - 1]) * 10 + DigitValue(s[|s| - 1])
  }

  /** Reading back the printed text gives the number again, so distinct
      numbers print differently. */
  lemma {:induction false} ParsePrinted(n: nat)
    ensures ParseDigits(NatToString(n)) == n
  {
    var s := NatToString(n);
    if n >= 10 {
      ParsePrinted(n / 10);
      assert s[..|s| - 1] == NatToString(n / 10);
    }
  }

  lemma PrintInjective(m: nat, n: nat)
    requires NatToString(m) == NatToString(n)
    ensures m == n
  {
    ParsePrinted(m);
    ParsePrinted(n);
  }
}

=== FILE: playback.dfy ===
/** Live playback of a recorded sequence in `Sequencer.js`: one deferred
    timer per event plus an auto-stop timer, all owned by a single handle
    list that `stopPlayback` cancels. The browser's timer table is part of
    the state; the clock is an input. */
module LivePlayback {
  import opened Common
  import opened Audio
  import R = Recorder

  /** What a pending timer does when it fires. */
  datatype TimerAction = PlayPad(index: int) | AutoStop

  /** A pending `setTimeout` callback and its delay in milliseconds. */
  datatype Timer = Timer(delayMs: real, action: TimerAction)

  /** `currentPlaybackHandle` (null or a list of timer ids), the pending
      timers by id, and the id the next `setTimeout` returns. */
  datatype Session = Session(handle: Option<seq<nat>>, timers: map<nat, Timer>, nextId: nat)

  /** Seconds between the call and the playback anchor. */
  const LeadSec: real := 0.05

  /** Milliseconds the auto-stop waits beyond the sequence's duration. */
  const AutoStopMarginMs: real := 100.0

  const Idle := Session(None, map[], 1)

  /** The ids the current handle list owns. */
  function Owned(s: Session): set<nat>
  {
    if s.handle.Some? then set h | h in s.handle.value else {}
  }

  /** Bookkeeping that every reachable session keeps: pending timers belong
      to the current handle list and ids already handed out are below
      `nextId`. */
  predicate Inv(s: Session)
  {
    && (forall id :: id in s.timers ==> id in Owned(s) && id < s.nextId)
    && (forall id :: id in Owned(s) ==> id < s.nextId)
  }

  /** `stopPlayback()`: `clearTimeout` on every handle, then forget them. */
  function StopPlayback(s: Session): (s': Session)
    ensures s'.handle.None?
    ensures s.handle.None? ==> s' == s
    ensures forall id :: id in s'.timers <==> id in s.timers && id !in Owned(s)
    ensures forall id :: id in s'.timers ==> s'.timers[id] == s.timers[id]
    ensures s'.nextId == s.nextId
    ensures Inv(s) ==> s'.timers == map[]
  {
    match s.handle
    case None => s
    case Some(hs) => Session(None, s.timers - (set h | h in hs), s.nextId)
  }

  /** The delay of the timer for an event at offset `t`, scheduled at clock
      value `now`: `max(0, (now + 0.05 + t - now) * 1000)`. */
  function EventDelayMs(now: real, t: real): (d: real)
    ensures d >= 0.0
    ensures d == Max(0.0, (LeadSec + t) * 1000.0)
  {
    Max(0.0, ((now + LeadSec) + t - now) * 1000.0)
  }

  /** Timers therefore fire in the order of the recorded offsets. */
  lemma DelaysFollowEventOrder(now: real, t1: real, t2: real)
    requires t1 <= t2
    ensures EventDelayMs(now, t1) <= EventDelayMs(now, t2)
  {
  }

  /** The `k`-th timer of a playback: one per event, then the auto-stop at
      `duration * 1000 + 100` ms. */
  function PlaybackTimer(sq: R.Sequence, now: real, k: nat): Timer
    requires k <= |sq.events|
  {
    if k < |sq.events| then Timer(EventDelayMs(now, sq.events[k].time), PlayPad(sq.events[k].index))
    else Timer(sq.duration * 1000.0 + AutoStopMarginMs, AutoStop)
  }

  /** The ids `setTimeout` hands out for `count` consecutive calls. */
  function HandleIds(base: nat, count: nat): (ids: seq<nat>)
    ensures |ids| == count
    ensures forall k :: 0 <= k < count ==> ids[k] == base + k
  {
    if count == 0 then [] else HandleIds(base, count - 1) + [base + count - 1]
  }

  /** The first `count` timers of a playback, under ids `base`, `base + 1`, …. */
  function NewTimers(sq: R.Sequence, now: real, base: nat, count: nat): (m: map<nat, Timer>)
    requires count <= |sq.events| + 1
    ensures forall id :: id in m <==> base <= id < base + count
    ensures forall id :: id in m ==> m[id] == PlaybackTimer(sq, now, id - base)
  {
    if count == 0 then map[]
    else NewTimers(sq, now, base, count - 1)[base + count - 1 := PlaybackTimer(sq, now, count - 1)]
  }

  /** The scheduling half of `playSequence`, on a session already stopped. */
  function Schedule(s: Session, sq: R.Sequence, now: real): Session
  {
    var n := |sq.events|;
    var ids := HandleIds(s.nextId, n + 1);
    Session(Some(ids), s.timers + NewTimers(sq, now, s.nextId, n + 1), s.nextId + n + 1)
  }

  lemma ScheduleShape(s: Session, sq: R.Sequence, now: real)
    ensures var s' := Schedule(s, sq, now);
      var n := |sq.events|;
      && s'.handle == Some(HandleIds(s.nextId, n + 1))
      && s'.nextId == s.nextId + n + 1
      && (forall id :: id in Owned(s') <==> s.nextId <= id <= s.nextId + n)
      && (forall id :: id in s'.timers <==> id in s.timers || s.nextId <= id <= s.nextId + n)
      && (forall id :: s.nextId <= id <= s.nextId + n ==> s'.timers[id] == PlaybackTimer(sq, now, id - s.nextId))
  {
    HandleIdsCover(s.nextId, |sq.events| + 1);
  }

  lemma HandleIdsCover(base: nat, count: nat)
    ensures forall id :: id in HandleIds(base, count) <==> base <= id < base + count
  {
    var ids := HandleIds(base, count);
    forall id | base <= id < base + count
      ensures id in ids
    {
      assert ids[id - base] == id;
    }
  }

  /** `s'` plays `sq` from clock value `now`: its handle list holds the
      fresh ids `base`, `base + 1`, ..., one per event and one for the
      auto-stop, each with its pending timer — the event timers at their
      delays, in event order, then the auto-stop `duration * 1000 + 100` ms
      out. */
  predicate Plays(base: nat, s': Session, sq: R.Sequence, now: real)
  {
    var n := |sq.events|;
    && s'.handle.Some? && |s'.handle.value| == n + 1
    && (forall k :: 0 <= k <= n ==> s'.handle.value[k] == base + k && s'.handle.value[k] in s'.timers)
    && (forall k :: 0 <= k < n ==>
          s'.timers[s'.handle.value[k]] == Timer(EventDelayMs(now, sq.events[k].time), PlayPad(sq.events[k].index)))
    && s'.timers[s'.handle.value[n]] == Timer(sq.duration * 1000.0 + AutoStopMarginMs, AutoStop)
  }

  /** No timer of `s` that the handle list owned is pending in `s'`, and
      every other pending timer of `s'` is new. */
  predicate OnlyOthersSurvive(s: Session, s': Session)
  {
    forall id :: id in s'.timers ==> id >= s.nextId || (id in s.timers && id !in Owned(s))
  }

  lemma SchedulePlays(s: Session, sq: R.Sequence, now: real)
    ensures Plays(s.nextId, Schedule(s, sq, now), sq, now)
  {
    var n := |sq.events|;
    var ids := HandleIds(s.nextId, n + 1);
    var added := NewTimers(sq, now, s.nextId, n + 1);
    var s' := Schedule(s, sq, now);
    assert s'.handle == Some(ids) && s'.timers == s.timers + added;
    forall k | 0 <= k <= n
      ensures ids[k] >= s.nextId && ids[k] in s'.timers && s'.timers[ids[k]] == PlaybackTimer(sq, now, k)
    {
      assert ids[k] == s.nextId + k && ids[k] in added;
    }
  }

  lemma ScheduleAfterStop(s: Session, sq: R.Sequence, now: real)
    ensures OnlyOthersSurvive(s, Schedule(StopPlayback(s), sq, now))
    ensures Inv(s) ==> Inv(Schedule(StopPlayback(s), sq, now))
  {
    ScheduleShape(StopPlayback(s), sq, now);
  }

  /** `playSequence(seq)`: always cancels the previous session first; a
      null sequence leaves no session; otherwise one fresh timer per event
      and one auto-stop timer, all owned by the new handle list. */
  function PlaySequence(s: Session, sq: Option<R.Sequence>, now: real): (s': Session)
    ensures sq.None? ==> s' == StopPlayback(s)
    ensures sq.Some? ==> Plays(s.nextId, s', sq.value, now)
    ensures OnlyOthersSurvive(s, s')
    ensures Inv(s) ==> Inv(s')
  {
    var s1 := StopPlayback(s);
    if sq.None? then s1
    else
      SchedulePlays(s1, sq.value, now);
      ScheduleAfterStop(s, sq.value, now);
      Schedule(s1, sq.value, now)
  }

  /** Result of one timer firing: the new session and the engine trigger it
      issued, if any. */
  datatype Fired = Fired(session: Session, trigger: Option<Trigger>)

  /** Timer `id` fires. A cleared id does nothing. An event timer looks up
      the pad's buffer and trim at firing time and triggers that region, or
      nothing when the buffer is missing; the auto-stop timer stops the
      session. */
  function Fire(s: Session, id: nat, buffers: Buffers, trims: Trims): (r: Fired)
    ensures id !in s.timers ==> r == Fired(s, None)
    ensures id in s.timers ==> id !in r.session.timers
    ensures id in s.timers && s.timers[id].action.PlayPad? ==>
      var i := s.timers[id].action.index;
      && r.session == s.(timers := s.timers - {id})
      && (r.trigger.Some? <==> i in buffers)
      && (r.trigger.Some? ==> r.trigger.value == Trigger(i, TrimOr(trims, i, FullRegion(buffers[i]))))
    ensures id in s.timers && s.timers[id].action.AutoStop? ==>
      && r.trigger.None?
      && r.session.handle.None?
      && (Inv(s) ==> r.session.timers == map[])
    ensures Inv(s) ==> Inv(r.session)
  {
    if id !in s.timers then Fired(s, None)
    else
      var s1 := s.(timers := s.timers - {id});
      match s.timers[id].action
      case PlayPad(i) =>
        var t := TrimFor(buffers, trims, i);
        Fired(s1, if t.Some? then Some(Trigger(i, t.value)) else None)
      case AutoStop =>
        Fired(StopPlayback(s1), None)
  }

  lemma IdleInv()
    ensures Inv(Idle)
  {
  }

  /** Starting session B cancels session A: no timer pending before the
      call survives it, so firing any of them afterwards does nothing. */
  lemma {:induction false} PlayCancelsPrevious(s: Session, sq: Option<R.Sequence>, now: real, id: nat,
                                               buffers: Buffers, trims: Trims)
    requires Inv(s)
    requires id in s.timers
    ensures id !in PlaySequence(s, sq, now).timers
    ensures Fire(PlaySequence(s, sq, now), id, buffers, trims) == Fired(PlaySequence(s, sq, now), None)
  {
    var s' := PlaySequence(s, sq, now);
    assert id < s.nextId && id in Owned(s);
  }

  /** Stopping twice, or with nothing playing, changes nothing more. */
  lemma StopIdempotent(s: Session)
    ensures StopPlayback(StopPlayback(s)) == StopPlayback(s)
    ensures s.handle.None? ==> StopPlayback(s) == s
  {
  }
}

=== FILE: presets.dfy ===
/** The preset REST API of `app.mjs`: the `type`/`factory`/`q` filter chain
    of `GET /api/presets`, the record built by POST, PUT and PATCH, and the
    seeding loop. The preset directory is a map from file path to parsed
    JSON; `validatePreset`, `slugify` and `safePresetPath` come from a file
    that is not part of this model and are parameters. */
module PresetApi {
  import opened Common

  /** A parsed JSON value. */
  datatype Json =
    | JNull
    | JBool(b: bool)
    | JNum(n: real)
    | JStr(s: string)
    | JArr(items: seq<Json>)
    | JObj(fields: map<string, Json>)

  /** A `TypeError` thrown inside a handler; the error middleware answers
      500 for it. */
  datatype JsError = TypeError

  /** `v.key` on a parsed value: only objects have the preset fields, and a
      missing field is `undefined` (`None`). */
  function Get(v: Json, key: string): (r: Option<Json>)
    ensures r.Some? <==> v.JObj? && key in v.fields
  {
    if v.JObj? && key in v.fields then Some(v.fields[key]) else None
  }

  /** The own fields `{ ...v }` copies. Arrays and strings spread their
      indices; presets are objects, so only objects are modelled. */
  function Fields(v: Json): map<string, Json>
  {
    if v.JObj? then v.fields else map[]
  }

  /** JavaScript truthiness of a possibly undefined value. */
  predicate Truthy(v: Option<Json>)
  {
    match v
    case None => false
    case Some(JNull) => false
    case Some(JBool(b)) => b
    case Some(JNum(n)) => n != 0.0
    case Some(JStr(s)) => |s| > 0
    case Some(_) => true
  }

  // ---- strings ----

  function LowerChar(c: char): (d: char)
    ensures 'A' <= c <= 'Z' ==> d as int == c as int + 32
    ensures !('A' <= c <= 'Z') ==> d == c
  {
    if 'A' <= c <= 'Z' then (c as int + 32) as char else c
  }

  /** `toLowerCase()` on ASCII letters. */
  function Lower(s: string): (t: string)
    ensures |t| == |s|
    ensures forall i :: 0 <= i < |s| ==> t[i] == LowerChar(s[i])
  {
    seq(|s|, i requires 0 <= i < |s| => LowerChar(s[i]))
  }

  lemma LowerIdempotent(s: string)
    ensures Lower(Lower(s)) == Lower(s)
  {
  }

  /** `hay.includes(needle)`. */
  predicate Contains(hay: string, needle: string)
    decreases |hay|
  {
    |needle| <= |hay| && (hay[..|needle|] == needle || Contains(hay[1..], needle))
  }

  /** `needle` occurs in `hay` starting at position `i`. */
  predicate OccursAt(hay: string, needle: string, i: int)
  {
    0 <= i && i + |needle| <= |hay| && hay[i..i + |needle|] == needle
  }

  /** `includes` finds exactly the strings that occur somewhere. */
  lemma {:induction false} ContainsAt(hay: string, needle: string)
    ensures Contains(hay, needle) <==> exists i :: OccursAt(hay, needle, i)
    decreases |hay|
  {
    if |needle| <= |hay| && hay[..|needle|] != needle {
      var tail := hay[1..];
      ContainsAt(tail, needle);
      if Contains(tail, needle) {
        var i :| OccursAt(tail, needle, i);
        assert hay[i + 1..i + 1 + |needle|] == tail[i..i + |needle|];
        assert OccursAt(hay, needle, i + 1);
      }
      if i :| OccursAt(hay, needle, i) {
        assert i != 0;
        assert tail[i - 1..i - 1 + |needle|] == hay[i..i + |needle|];
        assert OccursAt(tail, needle, i - 1);
      }
    } else if |needle| <= |hay| {
      assert OccursAt(hay, needle, 0);
    }
  }

  // ---- the search filters ----

  /** `x?.toLowerCase()`: undefined for a null or missing value, the lower
      case of a string, a `TypeError` for anything else. */
  function LowerOf(v: Option<Json>): (r: Result<Option<string>, JsError>)
    ensures r.Err? <==> v.Some? && !v.value.JNull? && !v.value.JStr?
  {
    match v
    case None => Ok(None)
    case Some(JNull) => Ok(None)
    case Some(JStr(s)) => Ok(Some(Lower(s)))
    case Some(_) => Err(TypeError)
  }

  /** `x?.toLowerCase().includes(needle)`, as a truth value. */
  function Includes(v: Option<Json>, needle: string): Result<bool, JsError>
  {
    match LowerOf(v)
    case Err(e) => Err(e)
    case Ok(None) => Ok(false)
    case Ok(Some(s)) => Ok(Contains(s, needle))
  }

  /** The `type` test: `p?.type?.toLowerCase() === needle`. */
  function TypeTest(p: Json, needle: string): Result<bool, JsError>
  {
    match LowerOf(Get(p, "type"))
    case Err(e) => Err(e)
    case Ok(t) => Ok(t == Some(needle))
  }

  /** The `factory` test: `Boolean(p?.isFactoryPresets) === want`. */
  predicate FactoryTest(p: Json, want: bool)
  {
    Truthy(Get(p, "isFactoryPresets")) == want
  }

  /** One sample of the `q` test: `s && (s.name?… || s.url?…)`; the url is
      only looked at when the name does not match. */
  function SampleTest(s: Json, needle: string): Result<bool, JsError>
  {
    if !Truthy(Some(s)) then Ok(false)
    else
      match Includes(Get(s, "name"), needle)
      case Err(e) => Err(e)
      case Ok(true) => Ok(true)
      case Ok(false) => Includes(Get(s, "url"), needle)
  }

  /** `samples.some(...)`: left to right, stopping at the first match. */
  function SomeSample(ss: seq<Json>, needle: string): (r: Result<bool, JsError>)
    ensures r == Ok(true) ==> exists k :: 0 <= k < |ss| && SampleTest(ss[k], needle) == Ok(true)
    ensures (forall k :: 0 <= k < |ss| ==> SampleTest(ss[k], needle) == Ok(false)) ==> r == Ok(false)
  {
    if |ss| == 0 then Ok(false)
    else
      match SampleTest(ss[0], needle)
      case Err(e) => Err(e)
      case Ok(true) => Ok(true)
      case Ok(false) =>
        var r := SomeSample(ss[1..], needle);
        assert r == Ok(true) ==> exists k :: 1 <= k < |ss| && SampleTest(ss[k], needle) == Ok(true) by {
          if r == Ok(true) {
            var k :| 0 <= k < |ss[1..]| && SampleTest(ss[1..][k], needle) == Ok(true);
            assert SampleTest(ss[k + 1], needle) == Ok(true);
          }
        }
        r
  }

  /** The `q` test: the name matches or some sample matches. Both halves
      are evaluated, so either can throw. */
  function QueryTest(p: Json, needle: string): Result<bool, JsError>
  {
    match Includes(Get(p, "name"), needle)
    case Err(e) => Err(e)
    case Ok(inName) =>
      var inSamples := match Get(p, "samples")
        case Some(JArr(ss)) => SomeSample(ss, needle)
        case _ => Ok(false);
      match inSamples
      case Err(e) => Err(e)
      case Ok(b) => Ok(inName || b)
  }

  /** `items.filter(pred)` with a predicate that may throw: the predicate sees
      every element in order and the first throw ends the request. */
  function FilterTry(s: seq<Json>, pred: Json -> Result<bool, JsError>): (r: Result<seq<Json>, JsError>)
    ensures r.Ok? ==> r.value == Filter(s, Accepts(pred))
    ensures r.Err? <==> exists k :: 0 <= k < |s| && pred(s[k]).Err?
  {
    if |s| == 0 then Ok([])
    else
      match pred(s[0])
      case Err(e) => Err(e)
      case Ok(b) =>
        var rest := FilterTry(s[1..], pred);
        assert rest.Err? <==> exists k :: 1 <= k < |s| && pred(s[k]).Err? by {
          if rest.Err? {
            var k :| 0 <= k < |s[1..]| && pred(s[1..][k]).Err?;
            assert pred(s[k + 1]).Err?;
          }
          forall k | 1 <= k < |s| && pred(s[k]).Err?
            ensures rest.Err?
          {
            assert pred(s[1..][k - 1]).Err?;
          }
        }
        match rest
        case Err(e) => Err(e)
        case Ok(kept) => Ok(if b then [s[0]] + kept else kept)
  }

  /** The elements a throwing predicate keeps: those it answers `true`. */
  function Accepts(pred: Json -> Result<bool, JsError>): Json -> bool
  {
    x => pred(x) == Ok(true)
  }

  /** The query string: each parameter absent (`None`) or its `String(…)`
      value. */
  datatype Query = Query(q: Option<string>, ptype: Option<string>, factory: Option<string>)

  /** `if (type)` / `if (q)`: present and non-empty. */
  predicate Active(v: Option<string>)
  {
    v.Some? && |v.value| > 0
  }

  function TypeStep(query: Query): Json -> Result<bool, JsError>
  {
    x => if Active(query.ptype) then TypeTest(x, Lower(query.ptype.value)) else Ok(true)
  }

  function FactoryStep(query: Query): Json -> bool
  {
    x => query.factory.None? || FactoryTest(x, query.factory.value == "true")
  }

  function QueryStep(query: Query): Json -> Result<bool, JsError>
  {
    x => if Active(query.q) then QueryTest(x, Lower(query.q.value)) else Ok(true)
  }

  /** Whether a preset answers the query, each active filter saying yes. */
  predicate Selected(p: Json, query: Query)
  {
    && TypeStep(query)(p) == Ok(true)
    && FactoryStep(query)(p)
    && QueryStep(query)(p) == Ok(true)
  }

  function SelectedBy(query: Query): Json -> bool
  {
    x => Selected(x, query)
  }

  /** `GET /api/presets`: the three filters in order, each only when its
      parameter is given. */
  function Search(items: seq<Json>, query: Query): (r: Result<seq<Json>, JsError>)
  {
    var afterType := if Active(query.ptype) then FilterTry(items, TypeStep(query)) else Ok(items);
    match afterType
    case Err(e) => Err(e)
    case Ok(a) =>
      var afterFactory := if query.factory.Some? then Filter(a, FactoryStep(query)) else a;
      if Active(query.q) then FilterTry(afterFactory, QueryStep(query)) else Ok(afterFactory)
  }

  /** The search is exactly the reference filter: a successful answer is the
      input with the presets that do not answer the query removed, in
      order; so it is a subsequence, and it holds a preset iff the input does
      and every active filter accepts it. */
  lemma {:induction false} SearchIsFilter(items: seq<Json>, query: Query)
    ensures Search(items, query).Ok? ==>
      && Search(items, query).value == Filter(items, SelectedBy(query))
      && IsSubseq(Search(items, query).value, items)
      && (forall p :: p in Search(items, query).value <==> p in items && Selected(p, query))
  {
    if Search(items, query).Ok? {
      SearchFiltersInTurn(items, query);
      FiltersInTurnAreOne(items, query);
      FilterIsSubseq(items, SelectedBy(query));
    }
  }

  /** A successful search applies the three filters one after the other; a
      filter whose parameter is absent keeps everything. */
  lemma SearchFiltersInTurn(items: seq<Json>, query: Query)
    requires Search(items, query).Ok?
    ensures Search(items, query).value
         == Filter(Filter(Filter(items, Accepts(TypeStep(query))), FactoryStep(query)), Accepts(QueryStep(query)))
  {
    var a := Filter(items, Accepts(TypeStep(query)));
    if !Active(query.ptype) {
      FilterKeepsAll(items, Accepts(TypeStep(query)));
    }
    var b := Filter(a, FactoryStep(query));
    if query.factory.None? {
      FilterKeepsAll(a, FactoryStep(query));
    }
    if !Active(query.q) {
      FilterKeepsAll(b, Accepts(QueryStep(query)));
    }
  }

  lemma FiltersInTurnAreOne(items: seq<Json>, query: Query)
    ensures Filter(Filter(Filter(items, Accepts(TypeStep(query))), FactoryStep(query)), Accepts(QueryStep(query)))
         == Filter(items, SelectedBy(query))
  {
    FilterThrice(items, Accepts(TypeStep(query)), FactoryStep(query), Accepts(QueryStep(query)), SelectedBy(query));
  }

  /** Absent or empty parameters leave the list as it is. */
  lemma NoFilterKeepsAll(items: seq<Json>, query: Query)
    requires !Active(query.ptype) && query.factory.None? && !Active(query.q)
    ensures Search(items, query) == Ok(items)
  {
  }

  /** A field `toLowerCase` can be called on, or skipped by `?.`. */
  predicate StringOrAbsent(v: Option<Json>)
  {
    v.None? || v.value.JNull? || v.value.JStr?
  }

  /** A search fails only when a preset it tests has a field of the wrong
      kind; with well-typed presets it always answers. */
  predicate WellTyped(p: Json)
  {
    && StringOrAbsent(Get(p, "type"))
    && StringOrAbsent(Get(p, "name"))
    && (Get(p, "samples").Some? && Get(p, "samples").value.JArr? ==>
          forall k :: 0 <= k < |Get(p, "samples").value.items| ==> WellTypedSample(Get(p, "samples").value.items[k]))
  }

  predicate WellTypedSample(s: Json)
  {
    StringOrAbsent(Get(s, "name")) && StringOrAbsent(Get(s, "url"))
  }

  lemma {:induction false} SomeSampleWellTyped(ss: seq<Json>, needle: string)
    requires forall k :: 0 <= k < |ss| ==> WellTypedSample(ss[k])
    ensures SomeSample(ss, needle).Ok?
    decreases |ss|
  {
    if |ss| > 0 {
      SomeSampleWellTyped(ss[1..], needle);
    }
  }

  lemma SearchWellTyped(items: seq<Json>, query: Query)
    requires forall k :: 0 <= k < |items| ==> WellTyped(items[k])
    ensures Search(items, query).Ok?
  {
    forall p | p in items
      ensures TypeStep(query)(p).Ok? && QueryStep(query)(p).Ok?
    {
      var ss := Get(p, "samples");
      if ss.Some? && ss.value.JArr? && Active(query.q) {
        SomeSampleWellTyped(ss.value.items, Lower(query.q.value));
      }
    }
  }

  // ---- what the filters keep, stated without evaluation order ----

  /** A string field whose lower case contains `needle`. */
  predicate FieldHas(v: Option<Json>, needle: string)
  {
    v.Some? && v.value.JStr? && Contains(Lower(v.value.s), needle)
  }

  /** A sample entry matches when it is truthy and its name or url
      contains the needle. */
  predicate SampleHas(s: Json, needle: string)
  {
    Truthy(Some(s)) && (FieldHas(Get(s, "name"), needle) || FieldHas(Get(s, "url"), needle))
  }

  /** A preset matches `q` iff its name, or the name or url of one of its
      samples, contains the lower-cased query. */
  predicate QueryHas(p: Json, needle: string)
  {
    || FieldHas(Get(p, "name"), needle)
    || (Get(p, "samples").Some? && Get(p, "samples").value.JArr? &&
        exists k :: 0 <= k < |Get(p, "samples").value.items| && SampleHas(Get(p, "samples").value.items[k], needle))
  }

  lemma {:induction false} SomeSampleMeans(ss: seq<Json>, needle: string)
    requires forall k :: 0 <= k < |ss| ==> WellTypedSample(ss[k])
    ensures SomeSample(ss, needle) == Ok(exists k :: 0 <= k < |ss| && SampleHas(ss[k], needle))
    decreases |ss|
  {
    if |ss| > 0 {
      var tail := ss[1..];
      SomeSampleMeans(tail, needle);
      SampleTestMeans(ss[0], needle);
      var inTail := exists k :: 0 <= k < |tail| && SampleHas(tail[k], needle);
      assert (exists k :: 0 <= k < |ss| && SampleHas(ss[k], needle)) == (SampleHas(ss[0], needle) || inTail) by {
        if inTail {
          var k :| 0 <= k < |tail| && SampleHas(tail[k], needle);
          assert ss[k + 1] == tail[k];
        }
        if k :| 1 <= k < |ss| && SampleHas(ss[k], needle) {
          assert tail[k - 1] == ss[k];
        }
      }
    }
  }

  lemma SampleTestMeans(s: Json, needle: string)
    requires WellTypedSample(s)
    ensures SampleTest(s, needle) == Ok(SampleHas(s, needle))
  {
  }

  /** On a well-typed preset the `q` test answers exactly `QueryHas`. */
  lemma QueryTestMeans(p: Json, needle: string)
    requires WellTyped(p)
    ensures QueryTest(p, needle) == Ok(QueryHas(p, needle))
  {
    var ss := Get(p, "samples");
    if ss.Some? && ss.value.JArr? {
      SomeSampleMeans(ss.value.items, needle);
    }
  }

  /** On a well-typed preset the `type` test answers whether the lower-cased
      `type` equals the needle. */
  lemma TypeTestMeans(p: Json, needle: string)
    requires StringOrAbsent(Get(p, "type"))
    ensures TypeTest(p, needle) == Ok(Get(p, "type").Some? && Get(p, "type").value.JStr? && Lower(Get(p, "type").value.s) == needle)
  {
  }

  /** Over well-typed presets the search keeps exactly those whose `type`
      matches case-insensitively, whose factory flag is the one asked for,
      and whose name or samples contain `q` case-insensitively — each only
      when that parameter is given. */
  lemma SearchKeepsExactly(items: seq<Json>, query: Query, p: Json)
    requires forall k :: 0 <= k < |items| ==> WellTyped(items[k])
    ensures Search(items, query).Ok?
    ensures p in Search(items, query).value <==>
      && p in items
      && (Active(query.ptype) ==>
            Get(p, "type").Some? && Get(p, "type").value.JStr? && Lower(Get(p, "type").value.s) == Lower(query.ptype.value))
      && (query.factory.Some? ==> Truthy(Get(p, "isFactoryPresets")) == (query.factory.value == "true"))
      && (Active(query.q) ==> QueryHas(p, Lower(query.q.value)))
  {
    SearchWellTyped(items, query);
    SearchIsFilter(items, query);
    if p in items {
      TypeTestMeans(p, if Active(query.ptype) then Lower(query.ptype.value) else "");
      QueryTestMeans(p, if Active(query.q) then Lower(query.q.value) else "");
    }
  }

  /** A parameter lower-cased when it is given. */
  function LowerParam(v: Option<string>): (w: Option<string>)
    ensures w.Some? <==> v.Some?
    ensures v.Some? ==> w.value == Lower(v.value)
  {
    match v
    case None => None
    case Some(x) => Some(Lower(x))
  }

  /** Matching ignores case: lower-casing the `type` parameter, the `q`
      parameter, or both, whichever are given, gives the same answer. */
  lemma SearchIgnoresCase(items: seq<Json>, query: Query, lowerType: bool, lowerQ: bool)
    ensures var query' := query.(ptype := if lowerType then LowerParam(query.ptype) else query.ptype,
                                 q := if lowerQ then LowerParam(query.q) else query.q);
            Search(items, query') == Search(items, query)
  {
    var query' := query.(ptype := if lowerType then LowerParam(query.ptype) else query.ptype,
                         q := if lowerQ then LowerParam(query.q) else query.q);
    if query.ptype.Some? { LowerIdempotent(query.ptype.value); }
    if query.q.Some? { LowerIdempotent(query.q.value); }
    assert Active(query'.ptype) == Active(query.ptype);
    assert Active(query'.q) == Active(query.q);
    assert TypeStep(query') == TypeStep(query);
    assert FactoryStep(query') == FactoryStep(query);
    assert QueryStep(query') == QueryStep(query);
  }

  // ---- records written by POST, PUT, PATCH and seeding ----

  /** The preset directory: file path to stored JSON. */
  type Store = map<string, Json>

  /** The helpers of `utils.mjs`, as uninterpreted functions. `validate`
      returns the error list; `partial` is the PATCH variant. */
  datatype Utils = Utils(validate: Json -> seq<string>, validatePartial: Json -> seq<string>,
                         slugify: Option<Json> -> Json, presetPath: Option<Json> -> string)

  /** `safePresetPath(preset.name)`: the file a preset is stored in. */
  function FileOf(u: Utils, preset: Json): string
  {
    u.presetPath(Get(preset, "name"))
  }

  /** `req.body ?? {}`. */
  function BodyOrEmpty(body: Option<Json>): Json
  {
    if body.None? || body.value.JNull? then JObj(map[]) else body.value
  }

  /** `{ id, slug, updatedAt: now, ...preset, name: preset.name }`: the
      submitted fields win over the generated ones. A `name` that is
      `undefined` is dropped when the record is written as JSON. */
  function Overlay(preset: Json, id: Json, slug: Json, now: string): (m: map<string, Json>)
    ensures forall k :: k in Fields(preset) ==> k in m && m[k] == Fields(preset)[k]
    ensures m.Keys == Fields(preset).Keys + {"id", "slug", "updatedAt"}
    ensures "id" !in Fields(preset) ==> m["id"] == id
    ensures "slug" !in Fields(preset) ==> m["slug"] == slug
    ensures "updatedAt" !in Fields(preset) ==> m["updatedAt"] == JStr(now)
    ensures Get(preset, "name").Some? ==> m["name"] == Get(preset, "name").value
  {
    var merged := map["id" := id, "slug" := slug, "updatedAt" := JStr(now)] + Fields(preset);
    match Get(preset, "name")
    case None => merged
    case Some(n) => merged["name" := n]
  }

  /** `x || fallback` on a possibly undefined value. */
  function OrElse(v: Option<Json>, fallback: Json): (r: Json)
    ensures Truthy(v) ==> r == v.value
    ensures !Truthy(v) ==> r == fallback
  {
    if Truthy(v) then v.value else fallback
  }

  /** The record POST and seeding build: `id` is the submitted one if
      truthy, else the fresh `uuid`; `slug` is `slugify(name)`. */
  function NewRecord(u: Utils, preset: Json, uuid: string, now: string): Json
  {
    JObj(Overlay(preset, OrElse(Get(preset, "id"), JStr(uuid)), u.slugify(Get(preset, "name")), now))
  }

  /** What a handler did: the status code, the directory after it, and the
      record it answered with. */
  datatype Reply = Reply(status: int, store: Store, record: Option<Json>)

  /** `POST /api/presets`: 400 with the validation errors, 409 when the
      file exists, else 201 and the record written to its file. */
  function Post(store: Store, body: Option<Json>, u: Utils, uuid: string, now: string): (r: Reply)
    ensures var preset := BodyOrEmpty(body);
      && (r.status == 400 <==> |u.validate(preset)| > 0)
      && (r.status != 201 ==> r.store == store && r.record.None?)
      && (r.status == 409 <==> |u.validate(preset)| == 0 && FileOf(u, preset) in store)
      && (r.status == 201 ==>
            var rec := NewRecord(u, preset, uuid, now);
            && FileOf(u, preset) !in store
            && r.store == store[FileOf(u, preset) := rec]
            && r.record == Some(rec))
    ensures r.status in {201, 400, 409}
  {
    var preset := BodyOrEmpty(body);
    if |u.validate(preset)| > 0 then Reply(400, store, None)
    else
      var file := FileOf(u, preset);
      if file in store then Reply(409, store, None)
      else
        var rec := NewRecord(u, preset, uuid, now);
        Reply(201, store[file := rec], Some(rec))
  }

  /** What a created record holds: every submitted field unchanged, the
      submitted `name`, and generated `id`, `slug` and `updatedAt` only
      where none was submitted. */
  lemma PostKeepsSubmittedFields(store: Store, body: Option<Json>, u: Utils, uuid: string, now: string)
    requires Post(store, body, u, uuid, now).status == 201
    ensures var preset := BodyOrEmpty(body);
      var rec := Post(store, body, u, uuid, now).record.value;
      && rec.JObj?
      && rec.fields.Keys == Fields(preset).Keys + {"id", "slug", "updatedAt"}
      && (forall k :: k in Fields(preset) ==> rec.fields[k] == Fields(preset)[k])
      && ("id" !in Fields(preset) ==> rec.fields["id"] == JStr(uuid))
      && ("slug" !in Fields(preset) ==> rec.fields["slug"] == u.slugify(Get(preset, "name")))
      && ("updatedAt" !in Fields(preset) ==> rec.fields["updatedAt"] == JStr(now))
  {
  }

  /** Replacing or patching writes the new file and removes the old one
      when the name changed. */
  function Rename(store: Store, oldFile: string, newFile: string, rec: Json): (s: Store)
    ensures newFile in s && s[newFile] == rec
    ensures oldFile != newFile ==> oldFile !in s
    ensures forall f :: f != oldFile && f != newFile ==> (f in s <==> f in store) && (f in s ==> s[f] == store[f])
  {
    if newFile != oldFile then store[newFile := rec] - {oldFile} else store[newFile := rec]
  }

  /** `PUT /api/presets/:name`: 404 without the file, 400 on validation
      errors, else the record (keeping the stored `id` when truthy) is
      written under the new name. */
  function Put(store: Store, name: string, body: Option<Json>, u: Utils, uuid: string, now: string): (r: Reply)
    ensures var oldFile := u.presetPath(Some(JStr(name)));
      var preset := BodyOrEmpty(body);
      && (r.status == 404 <==> oldFile !in store)
      && (r.status == 400 <==> oldFile in store && |u.validate(preset)| > 0)
      && (r.status != 200 ==> r.store == store && r.record.None?)
      && (r.status == 200 ==>
            && r.record.Some? && r.record.value.JObj?
            && var current := store[oldFile];
            var rec := r.record.value;
            && rec.fields.Keys == Fields(preset).Keys + {"id", "slug", "updatedAt"}
            && r.store == Rename(store, oldFile, FileOf(u, preset), rec)
            && (forall k :: k in Fields(preset) ==> k in rec.fields && rec.fields[k] == Fields(preset)[k])
            && ("id" !in Fields(preset) ==> rec.fields["id"] == OrElse(Get(current, "id"), JStr(uuid)))
            && ("slug" !in Fields(preset) ==> rec.fields["slug"] == u.slugify(Get(preset, "name")))
            && ("updatedAt" !in Fields(preset) ==> rec.fields["updatedAt"] == JStr(now)))
    ensures r.status in {200, 400, 404}
  {
    var oldFile := u.presetPath(Some(JStr(name)));
    if oldFile !in store then Reply(404, store, None)
    else
      var preset := BodyOrEmpty(body);
      if |u.validate(preset)| > 0 then Reply(400, store, None)
      else
        var newFile := FileOf(u, preset);
        var current := store[oldFile];
        var id := OrElse(Get(current, "id"), OrElse(Get(preset, "id"), JStr(uuid)));
        var rec := JObj(Overlay(preset, id, u.slugify(Get(preset, "name")), now));
        Reply(200, Rename(store, oldFile, newFile, rec), Some(rec))
  }

  /** `merged.name ?? current.name`: a null or missing merged name falls
      back to the stored one (and is dropped if that is missing too). */
  function NameFallback(merged: map<string, Json>, current: Json): (m: map<string, Json>)
    ensures "name" in merged && merged["name"] != JNull ==> m == merged
    ensures !("name" in merged && merged["name"] != JNull) ==>
      && (Get(current, "name").Some? ==> m == merged["name" := Get(current, "name").value])
      && (Get(current, "name").None? ==> m == merged - {"name"})
  {
    if "name" in merged && merged["name"] != JNull then merged
    else
      match Get(current, "name")
      case None => merged - {"name"}
      case Some(n) => merged["name" := n]
  }

  /** `{ ...current, ...req.body }` with the name fallback: what PATCH
      validates. */
  function PatchMerged(current: Json, body: Option<Json>): map<string, Json>
  {
    var patch := if body.Some? then Fields(body.value) else map[];
    NameFallback(Fields(current) + patch, current)
  }

  /** `PATCH /api/presets/:name`: the body overlays the stored record, the
      name falls back to the stored one, then (unlike POST and PUT) `slug`
      and `updatedAt` are recomputed over whatever was submitted. */
  function Patch(store: Store, name: string, body: Option<Json>, u: Utils, now: string): (r: Reply)
    ensures var oldFile := u.presetPath(Some(JStr(name)));
      && (r.status == 404 <==> oldFile !in store)
      && (r.status == 400 <==> oldFile in store && |u.validatePartial(JObj(PatchMerged(store[oldFile], body)))| > 0)
      && (r.status != 200 ==> r.store == store && r.record.None?)
      && (r.status == 200 ==>
            var rec := JObj(PatchRecord(store[oldFile], body, u, now));
            && r.record == Some(rec)
            && r.store == Rename(store, oldFile, FileOf(u, rec), rec))
    ensures r.status in {200, 400, 404}
  {
    var oldFile := u.presetPath(Some(JStr(name)));
    if oldFile !in store then Reply(404, store, None)
    else
      var current := store[oldFile];
      if |u.validatePartial(JObj(PatchMerged(current, body)))| > 0 then Reply(400, store, None)
      else
        var rec := JObj(PatchRecord(current, body, u, now));
        Reply(200, Rename(store, oldFile, FileOf(u, rec), rec), Some(rec))
  }

  /** The record a successful PATCH writes: every patched field except
      `name`, `slug` and `updatedAt` as submitted, every other stored field
      as it was, the name patched unless the patch gives null, else the
      stored one; then a fresh timestamp and a slug recomputed from the
      final name, whatever slug was submitted. */
  function PatchRecord(current: Json, body: Option<Json>, u: Utils, now: string): (m: map<string, Json>)
    ensures var patch := if body.Some? then Fields(body.value) else map[];
      && {"slug", "updatedAt"} <= m.Keys
      && m.Keys <= Fields(current).Keys + patch.Keys + {"slug", "updatedAt"}
      && (("name" in patch && patch["name"] != JNull) || Get(current, "name").Some? <==> "name" in m)
      && (forall k :: k in patch && k !in {"name", "slug", "updatedAt"} ==> k in m && m[k] == patch[k])
      && (forall k :: k in Fields(current) && k !in patch && k !in {"name", "slug", "updatedAt"} ==>
            k in m && m[k] == Fields(current)[k])
      && ("name" in patch && patch["name"] != JNull ==> m["name"] == patch["name"])
      && (!("name" in patch && patch["name"] != JNull) && Get(current, "name").Some? ==> m["name"] == Get(current, "name").value)
      && m["updatedAt"] == JStr(now)
      && m["slug"] == u.slugify(Get(JObj(m), "name"))
  {
    var merged := PatchMerged(current, body);
    var named := Get(JObj(merged), "name");
    var m := merged["slug" := u.slugify(named)]["updatedAt" := JStr(now)];
    assert Get(JObj(m), "name") == named;
    m
  }

  /** A submitted `slug` survives POST but not PATCH. */
  lemma SubmittedSlugPostVersusPatch(u: Utils, preset: Json, uuid: string, now: string, store: Store, name: string)
    requires "slug" in Fields(preset)
    requires Patch(store, name, Some(preset), u, now).status == 200
    ensures NewRecord(u, preset, uuid, now).fields["slug"] == Fields(preset)["slug"]
    ensures var rec := Patch(store, name, Some(preset), u, now).record.value;
      rec.fields["slug"] == u.slugify(Get(rec, "name"))
  {
  }

  // ---- seeding ----

  /** The answer of `POST /api/presets:seed`: status, directory, and the
      `created` count and `slugs` so far. */
  datatype SeedReply = SeedReply(status: int, store: Store, created: nat, slugs: seq<Json>)

  /** Position of the first preset the validator rejects, or the length. */
  function FirstInvalid(u: Utils, arr: seq<Json>): (n: nat)
    ensures n <= |arr|
    ensures forall k :: 0 <= k < n ==> |u.validate(arr[k])| == 0
    ensures n < |arr| ==> |u.validate(arr[n])| > 0
  {
    if |arr| == 0 || |u.validate(arr[0])| > 0 then 0
    else 1 + FirstInvalid(u, arr[1..])
  }

  /** The directory after writing the records of `arr` in order; preset `k`
      gets the fresh id `uuids(k)` and timestamp `clock(k)`. */
  function WriteAll(store: Store, u: Utils, arr: seq<Json>, uuids: nat -> string, clock: nat -> string): Store
    decreases |arr|
  {
    if |arr| == 0 then store
    else
      var k := |arr| - 1;
      WriteAll(store, u, arr[..k], uuids, clock)[FileOf(u, arr[k]) := NewRecord(u, arr[k], uuids(k), clock(k))]
  }

  lemma WriteAllSnoc(store: Store, u: Utils, arr: seq<Json>, uuids: nat -> string, clock: nat -> string, k: nat)
    requires k < |arr|
    ensures WriteAll(store, u, arr[..k + 1], uuids, clock)
         == WriteAll(store, u, arr[..k], uuids, clock)[FileOf(u, arr[k]) := NewRecord(u, arr[k], uuids(k), clock(k))]
  {
    assert arr[..k + 1][..k] == arr[..k];
  }

  /** The slug a record carries: the submitted one, else `slugify(name)`. */
  function SubmittedOrSlugified(u: Utils, p: Json): Json
  {
    if "slug" in Fields(p) then Fields(p)["slug"] else u.slugify(Get(p, "name"))
  }

  /** The record written for a preset carries that slug. */
  lemma RecordSlug(u: Utils, p: Json, uuid: string, now: string)
    ensures "slug" in NewRecord(u, p, uuid, now).fields
    ensures NewRecord(u, p, uuid, now).fields["slug"] == SubmittedOrSlugified(u, p)
  {
  }

  /** The `slugs` list after the records of `arr` are written. */
  function SeedSlugs(u: Utils, arr: seq<Json>): (r: seq<Json>)
    ensures |r| == |arr|
    ensures forall k :: 0 <= k < |arr| ==> r[k] == SubmittedOrSlugified(u, arr[k])
    decreases |arr|
  {
    if |arr| == 0 then []
    else
      var k := |arr| - 1;
      assert forall j :: 0 <= j < k ==> arr[..k][j] == arr[j];
      SeedSlugs(u, arr[..k]) + [SubmittedOrSlugified(u, arr[k])]
  }

  lemma SeedSlugsSnoc(u: Utils, arr: seq<Json>, k: nat)
    requires k < |arr|
    ensures SeedSlugs(u, arr[..k + 1]) == SeedSlugs(u, arr[..k]) + [SubmittedOrSlugified(u, arr[k])]
  {
    assert arr[..k + 1][..k] == arr[..k];
  }

  /** The seeding loop. A body that is not an array is refused with
      nothing written. Presets are validated and written one at a time;
      the first invalid one ends the request with 400, and the presets
      before it stay written. */
  method Seed(store: Store, body: Option<Json>, u: Utils, uuids: nat -> string, clock: nat -> string)
    returns (r: SeedReply)
    ensures body.None? || !body.value.JArr? ==> r == SeedReply(400, store, 0, [])
    ensures body.Some? && body.value.JArr? ==>
      var arr := body.value.items;
      var n := FirstInvalid(u, arr);
      && r.store == WriteAll(store, u, arr[..n], uuids, clock)
      && r.created == n
      && r.slugs == SeedSlugs(u, arr[..n])
      && (r.status == 201 <==> n == |arr|)
      && (r.status != 201 ==> r.status == 400)
  {
    if body.None? || !body.value.JArr? {
      return SeedReply(400, store, 0, []);
    }
    var arr := body.value.items;
    ghost var n := FirstInvalid(u, arr);
    var st := store;
    var created := 0;
    var slugs: seq<Json> := [];
    for k := 0 to |arr|
      invariant k <= n
      invariant st == WriteAll(store, u, arr[..k], uuids, clock)
      invariant created == k
      invariant slugs == SeedSlugs(u, arr[..k])
    {
      if |u.validate(arr[k])| > 0 {
        assert k == n;
        return SeedReply(400, st, created, slugs);
      }
      assert k < n;
      var withMeta := NewRecord(u, arr[k], uuids(k), clock(k));
      WriteAllSnoc(store, u, arr, uuids, clock, k);
      SeedSlugsSnoc(u, arr, k);
      RecordSlug(u, arr[k], uuids(k), clock(k));
      st := st[FileOf(u, arr[k]) := withMeta];
      created := created + 1;
      slugs := slugs + [withMeta.fields["slug"]];
    }
    assert arr[..|arr|] == arr;
    return SeedReply(201, st, created, slugs);
  }

  /** A written preset is found under its file name unless a later preset
      of the same batch went to the same file. */
  lemma {:induction false} WriteAllStores(store: Store, u: Utils, arr: seq<Json>, uuids: nat -> string, clock: nat -> string, k: nat)
    requires k < |arr|
    requires forall j :: k < j < |arr| ==> FileOf(u, arr[j]) != FileOf(u, arr[k])
    ensures FileOf(u, arr[k]) in WriteAll(store, u, arr, uuids, clock)
    ensures WriteAll(store, u, arr, uuids, clock)[FileOf(u, arr[k])] == NewRecord(u, arr[k], uuids(k), clock(k))
    decreases |arr|
  {
    var last := |arr| - 1;
    var prefix := arr[..last];
    if k < last {
      assert forall j :: k < j < |prefix| ==> prefix[j] == arr[j];
      assert prefix[k] == arr[k];
      WriteAllStores(store, u, prefix, uuids, clock, k);
      assert FileOf(u, arr[last]) != FileOf(u, arr[k]);
    }
  }

  /** Files no preset of the batch names keep their contents. */
  lemma {:induction false} WriteAllLeavesOthers(store: Store, u: Utils, arr: seq<Json>, uuids: nat -> string, clock: nat -> string, f: string)
    requires forall j :: 0 <= j < |arr| ==> FileOf(u, arr[j]) != f
    ensures f in WriteAll(store, u, arr, uuids, clock) <==> f in store
    ensures f in store ==> WriteAll(store, u, arr, uuids, clock)[f] == store[f]
    decreases |arr|
  {
    if |arr| > 0 {
      var prefix := arr[..|arr| - 1];
      assert forall j :: 0 <= j < |prefix| ==> prefix[j] == arr[j];
      WriteAllLeavesOthers(store, u, prefix, uuids, clock, f);
    }
  }
}

=== FILE: recorder.dfy ===
/** The recording half of `Sequencer.js`: a two-state recorder that captures
    `(padIndex, offset)` events against the transport clock, the list of
    finished sequences, deletion by id, and the export file name. */
module Recorder {
  import opened Common
  import Decimal

  /** One captured pad hit, `time` seconds after recording started. */
  datatype Event = Event(index: int, time: real)

  /** A finished recording. `id` is the opaque `Date.now()` token. */
  datatype Sequence = Sequence(id: int, name: string, events: seq<Event>, duration: real)

  /** `isRecording`, `recordingStartTime`, `recorded` and `sequences`. */
  datatype Recorder = Recorder(isRecording: bool, t0: real, recorded: seq<Event>, sequences: seq<Sequence>)

  /** Seconds added after the last hit so that its sample can ring out. */
  const TailSec: real := 0.5

  const Initial := Recorder(false, 0.0, [], [])

  /** `startRecording` at clock value `now`. Stopping the GUI's preview and
      any sequence playback is the caller's part (see SamplerGui). */
  function StartRecording(r: Recorder, now: real): (r': Recorder)
    ensures r.isRecording ==> r' == r
    ensures !r.isRecording ==> r'.isRecording && r'.t0 == now && r'.recorded == []
    ensures r'.sequences == r.sequences
  {
    if r.isRecording then r
    else r.(isRecording := true, t0 := now, recorded := [])
  }

  /** `recordHit(index)` at clock value `now`. */
  function RecordHit(r: Recorder, index: int, now: real): (r': Recorder)
    ensures !r.isRecording ==> r' == r
    ensures r.isRecording ==> |r'.recorded| == |r.recorded| + 1
    ensures r.isRecording ==> r'.recorded[..|r.recorded|] == r.recorded
    ensures r.isRecording ==> r'.recorded[|r.recorded|] == Event(index, now - r.t0)
    ensures r'.isRecording == r.isRecording && r'.t0 == r.t0 && r'.sequences == r.sequences
  {
    if !r.isRecording then r
    else r.(recorded := r.recorded + [Event(index, now - r.t0)])
  }

  /** The display name `Sequence N (k hits)`. */
  function SequenceName(n: nat, hits: nat): string
  {
    "Sequence " + Decimal.NatToString(n) + " (" + Decimal.NatToString(hits) + " hits)"
  }

  /** `stopRecording()`, where `id` stands for the `Date.now()` value read. */
  function StopRecording(r: Recorder, id: int): (r': Recorder)
    ensures !r'.isRecording
    ensures !r.isRecording ==> r' == r
    ensures r.isRecording && |r.recorded| == 0 ==> r'.sequences == r.sequences
    ensures r.isRecording && |r.recorded| > 0 ==>
      && |r'.sequences| == |r.sequences| + 1
      && r'.sequences[..|r.sequences|] == r.sequences
      && r'.sequences[|r.sequences|].id == id
      && r'.sequences[|r.sequences|].events == r.recorded
      && r'.sequences[|r.sequences|].duration == r.recorded[|r.recorded| - 1].time + 0.5
      && r'.sequences[|r.sequences|].name == SequenceName(|r.sequences| + 1, |r.recorded|)
  {
    if !r.isRecording then r
    else if |r.recorded| == 0 then r.(isRecording := false)
    else
      var k := |r.recorded|;
      var sq := Sequence(id, SequenceName(|r.sequences| + 1, k), r.recorded, r.recorded[k - 1].time + TailSec);
      r.(isRecording := false, sequences := r.sequences + [sq])
  }

  /** The delete button: `sequences.filter(x => x.id !== id)`. */
  function DeleteSequence(r: Recorder, id: int): (r': Recorder)
    ensures forall s :: s in r'.sequences <==> s in r.sequences && s.id != id
    ensures IsSubseq(r'.sequences, r.sequences)
    ensures (forall s :: s in r.sequences ==> s.id != id) ==> r' == r
    ensures r'.isRecording == r.isRecording && r'.t0 == r.t0 && r'.recorded == r.recorded
    ensures forall s :: multiset(r'.sequences)[s] == if s.id != id then multiset(r.sequences)[s] else 0
  {
    var keep := (s: Sequence) => s.id != id;
    FilterIsSubseq(r.sequences, keep);
    DeleteCounts(r.sequences, id, keep);
    if forall s :: s in r.sequences ==> keep(s) then
      FilterKeepsAll(r.sequences, keep);
      r.(sequences := Filter(r.sequences, keep))
    else
      r.(sequences := Filter(r.sequences, keep))
  }

  /** Deleting by id keeps every other sequence as many times as it
      occurred and drops every copy of the deleted one. */
  lemma DeleteCounts(seqs: seq<Sequence>, id: int, keep: Sequence -> bool)
    requires forall s :: keep(s) == (s.id != id)
    ensures forall s :: multiset(Filter(seqs, keep))[s] == if s.id != id then multiset(seqs)[s] else 0
  {
    forall s
      ensures multiset(Filter(seqs, keep))[s] == if s.id != id then multiset(seqs)[s] else 0
    {
      FilterCount(seqs, keep, s);
    }
  }

  /** The characters `/[^a-zA-Z0-9_]/g` does not strip. */
  predicate IsWordChar(c: char)
  {
    ('a' <= c <= 'z') || ('A' <= c <= 'Z') || ('0' <= c <= '9') || c == '_'
  }

  const ExportSuffix: string := "_export.wav"

  /** The download name: the sequence name with every character outside
      `[A-Za-z0-9_]` removed, followed by `_export.wav`. */
  function ExportFileName(name: string): (f: string)
    ensures |f| >= |ExportSuffix| && f[|f| - |ExportSuffix|..] == ExportSuffix
    ensures forall i :: 0 <= i < |f| - |ExportSuffix| ==> IsWordChar(f[i])
    ensures forall c :: multiset(f[..|f| - |ExportSuffix|])[c] == if IsWordChar(c) then multiset(name)[c] else 0
    ensures IsSubseq(f[..|f| - |ExportSuffix|], name)
  {
    var stem := Filter(name, IsWordChar);
    StemOf(name);
    var f := stem + ExportSuffix;
    assert f[..|f| - |ExportSuffix|] == stem;
    f
  }

  /** What filtering a name down to word characters keeps. */
  lemma StemOf(name: string)
    ensures var stem := Filter(name, IsWordChar);
      && (forall i :: 0 <= i < |stem| ==> IsWordChar(stem[i]))
      && (forall c :: multiset(stem)[c] == if IsWordChar(c) then multiset(name)[c] else 0)
      && IsSubseq(stem, name)
  {
    var stem := Filter(name, IsWordChar);
    FilterIsSubseq(name, IsWordChar);
    assert forall i :: 0 <= i < |stem| ==> stem[i] in stem;
    forall c
      ensures multiset(stem)[c] == if IsWordChar(c) then multiset(name)[c] else 0
    {
      FilterCount(name, IsWordChar, c);
    }
  }

  /** Sanitising is stable: a name already made of word characters is kept
      as it is, so re-sanitising an export stem changes nothing. */
  lemma ExportFileNameOfCleanName(name: string)
    requires forall i :: 0 <= i < |name| ==> IsWordChar(name[i])
    ensures ExportFileName(name) == name + ExportSuffix
  {
    FilterKeepsAll(name, IsWordChar);
  }

  // ---- recording sessions as traces ----

  /** A pad hit delivered at clock value `at`. */
  datatype Hit = Hit(index: int, at: real)

  /** Delivers the hits in order. */
  function RecordHits(r: Recorder, hits: seq<Hit>): Recorder
    decreases |hits|
  {
    if |hits| == 0 then r
    else RecordHits(RecordHit(r, hits[0].index, hits[0].at), hits[1..])
  }

  /** What a recording holds after the hits: one event per hit, offset from
      the start time, appended after the earlier events. */
  lemma {:induction false} RecordHitsAppends(r: Recorder, hits: seq<Hit>)
    requires r.isRecording
    ensures RecordHits(r, hits).isRecording && RecordHits(r, hits).t0 == r.t0
    ensures RecordHits(r, hits).sequences == r.sequences
    ensures RecordHits(r, hits).recorded
         == r.recorded + seq(|hits|, k requires 0 <= k < |hits| => Event(hits[k].index, hits[k].at - r.t0))
    decreases |hits|
  {
    if |hits| > 0 {
      var r1 := RecordHit(r, hits[0].index, hits[0].at);
      RecordHitsAppends(r1, hits[1..]);
      var tail := seq(|hits| - 1, k requires 0 <= k < |hits| - 1 => Event(hits[1..][k].index, hits[1..][k].at - r.t0));
      var all := seq(|hits|, k requires 0 <= k < |hits| => Event(hits[k].index, hits[k].at - r.t0));
      assert all == [Event(hits[0].index, hits[0].at - r.t0)] + tail;
    }
  }

  /** Hits delivered while the recorder is idle are ignored. */
  lemma {:induction false} RecordHitsIdle(r: Recorder, hits: seq<Hit>)
    requires !r.isRecording
    ensures RecordHits(r, hits) == r
    decreases |hits|
  {
    if |hits| > 0 {
      RecordHitsIdle(r, hits[1..]);
    }
  }

  /** Events are in non-decreasing time order. */
  predicate TimeOrdered(events: seq<Event>)
  {
    forall i, j :: 0 <= i < j < |events| ==> events[i].time <= events[j].time
  }

  /** A monotonic clock read at or after the start time. */
  predicate ClockMonotonicFrom(t0: real, hits: seq<Hit>)
  {
    && (forall i :: 0 <= i < |hits| ==> t0 <= hits[i].at)
    && (forall i, j :: 0 <= i < j < |hits| ==> hits[i].at <= hits[j].at)
  }

  /** A whole recording session: start at `t0` from idle, `n` hits on a
      monotonic clock, stop. The new sequence holds exactly the `n` events,
      non-negative and in time order, and lasts the last offset plus 0.5 s. */
  lemma RecordingSession(r: Recorder, t0: real, hits: seq<Hit>, id: int)
    requires !r.isRecording
    requires |hits| > 0
    requires ClockMonotonicFrom(t0, hits)
    ensures var r' := StopRecording(RecordHits(StartRecording(r, t0), hits), id);
      && |r'.sequences| == |r.sequences| + 1
      && var sq := r'.sequences[|r.sequences|];
      && |sq.events| == |hits|
      && (forall k :: 0 <= k < |hits| ==> sq.events[k] == Event(hits[k].index, hits[k].at - t0))
      && (forall k :: 0 <= k < |hits| ==> sq.events[k].time >= 0.0)
      && TimeOrdered(sq.events)
      && sq.duration == hits[|hits| - 1].at - t0 + 0.5
  {
    var r1 := StartRecording(r, t0);
    var r2 := RecordHits(r1, hits);
    RecordedFromStart(r, t0, hits);
    assert TimeOrdered(r2.recorded);
    var r' := StopRecording(r2, id);
    assert r'.sequences[|r.sequences|].events == r2.recorded;
  }

  /** The events captured from a fresh start are exactly the hits, offset
      by the start time. */
  lemma RecordedFromStart(r: Recorder, t0: real, hits: seq<Hit>)
    requires !r.isRecording
    ensures var r2 := RecordHits(StartRecording(r, t0), hits);
      && r2.isRecording && r2.sequences == r.sequences
      && |r2.recorded| == |hits|
      && forall k :: 0 <= k < |hits| ==> r2.recorded[k] == Event(hits[k].index, hits[k].at - t0)
  {
    RecordHitsAppends(StartRecording(r, t0), hits);
  }

  /** A take of one hit on pad 0, started and hit at clock value `t` and
      stopped with id `id`. */
  function OneHitTake(r: Recorder, t: real, id: int): Recorder
  {
    StopRecording(RecordHit(StartRecording(r, t), 0, t), id)
  }

  /** Auto-numbering counts the sequences currently in the list, so a
      deletion followed by a new recording can repeat an earlier name: from
      an idle recorder with no sequences, record one hit (id `a`), record
      another (id `b`), delete the first, and record a third (id `c`); both
      remaining sequences are named `Sequence 2 (1 hits)`. */
  lemma NameRepeatsAfterDelete(r0: Recorder, t1: real, t2: real, t3: real, a: int, b: int, c: int)
    requires !r0.isRecording && r0.sequences == [] && a != b
    ensures var r := OneHitTake(DeleteSequence(OneHitTake(OneHitTake(r0, t1, a), t2, b), a), t3, c);
      && |r.sequences| == 2
      && r.sequences[0].id == b && r.sequences[1].id == c
      && r.sequences[0].name == r.sequences[1].name == SequenceName(2, 1)
  {
    var take := [Event(0, 0.0)];
    var s1 := Sequence(a, SequenceName(1, 1), take, 0.5);
    var s2 := Sequence(b, SequenceName(2, 1), take, 0.5);
    var s3 := Sequence(c, SequenceName(2, 1), take, 0.5);
    TakeStep(r0, t1, a, 1);
    var r1 := OneHitTake(r0, t1, a);
    assert r1.sequences == [s1];
    TakeStep(r1, t2, b, 2);
    var r2 := OneHitTake(r1, t2, b);
    assert r2.sequences == [s1] + [s2];
    DeleteFirstOfTwo(r2, a);
    var r3 := DeleteSequence(r2, a);
    TakeStep(r3, t3, c, 2);
    var r4 := OneHitTake(r3, t3, c);
    assert r4.sequences == [s2] + [s3];
  }

  /** One take from idle appends one sequence of one event, numbered by
      the list length. */
  lemma TakeStep(r: Recorder, t: real, id: int, n: nat)
    requires !r.isRecording && n == |r.sequences| + 1
    ensures OneHitTake(r, t, id).sequences
         == r.sequences + [Sequence(id, SequenceName(n, 1), [Event(0, 0.0)], 0.5)]
    ensures !OneHitTake(r, t, id).isRecording
  {
    var a := StartRecording(r, t);
    assert a == Recorder(true, t, [], r.sequences);
    var b := RecordHit(a, 0, t);
    assert b == Recorder(true, t, [Event(0, 0.0)], r.sequences);
  }

  /** Deleting the first of two sequences by its id keeps the second. */
  lemma DeleteFirstOfTwo(r: Recorder, id: int)
    requires |r.sequences| == 2 && r.sequences[0].id == id && r.sequences[1].id != id
    ensures DeleteSequence(r, id).sequences == [r.sequences[1]]
  {
  }
}

=== FILE: render.dfy ===
/** The scheduling part of `downloadSequence` in `Sequencer.js`: what the
    offline context is asked to play (one buffer source per event whose pad
    has a buffer) and how many frames it renders. The mixing itself is the
    browser's and is not modelled. */
module OfflineRender {
  import opened Common
  import opened Audio
  import R = Recorder
  import LP = LivePlayback

  /** `src.start(startAt, offset, length)` on a source playing pad `index`. */
  datatype Source = Source(index: int, startAt: real, offset: real, length: real)

  /** The offline context's shape and the sources scheduled on it. */
  datatype RenderPlan = RenderPlan(channels: nat, sampleRate: real, frameCount: int, sources: seq<Source>)

  /** Neither `OfflineAudioContext` nor `webkitOfflineAudioContext` exists
      (`UnsupportedEnvironment`), or a source's `start` threw a `RangeError`
      while the events were being scheduled (`StartRangeError`). */
  datatype RenderError = UnsupportedEnvironment | StartRangeError

  /** The offline context is always stereo. */
  const RenderChannels: nat := 2

  /** Seconds rendered after the sequence's own duration. */
  const RenderTailSec: real := 0.5

  /** Shortest play length handed to `start`. */
  const MinPlaySec: real := 0.01

  /** `Math.ceil` on a real. */
  function Ceil(x: real): (n: int)
    ensures n as real - 1.0 < x <= n as real
  {
    -((-x).Floor)
  }

  /** The source for one event: nothing when the pad has no buffer; else the
      current trim (or the full buffer) gives the offset into the buffer and
      the play length `max(0.01, end - start)`, and the event's own offset is
      the start time on the render timeline. */
  function SourceFor(e: R.Event, buffers: Buffers, trims: Trims): (r: Option<Source>)
    ensures r.None? <==> e.index !in buffers
    ensures r.Some? ==> r.value.index == e.index && r.value.startAt == e.time && r.value.length >= MinPlaySec
    ensures e.index in buffers && e.index in trims ==>
      && r.value.offset == trims[e.index].startSec
      && r.value.length == Max(MinPlaySec, trims[e.index].endSec - trims[e.index].startSec)
    ensures e.index in buffers && e.index !in trims ==>
      && r.value.offset == 0.0
      && r.value.length == Max(MinPlaySec, buffers[e.index].duration)
  {
    match TrimFor(buffers, trims, e.index)
    case None => None
    case Some(t) => Some(Source(e.index, e.time, t.startSec, Max(MinPlaySec, t.endSec - t.startSec)))
  }

  /** The events whose pad has a buffer, in recorded order. */
  function LoadedEvents(events: seq<R.Event>, buffers: Buffers): seq<R.Event>
  {
    Filter(events, (e: R.Event) => e.index in buffers)
  }

  /** The `sequence.events.forEach` loop: events in order, those whose pad
      has no buffer silently skipped. */
  function ScheduleEvents(events: seq<R.Event>, buffers: Buffers, trims: Trims): (r: seq<Source>)
    ensures |r| <= |events|
    ensures forall k :: 0 <= k < |r| ==> r[k].index in buffers && r[k].length >= MinPlaySec
  {
    if |events| == 0 then []
    else SourcesFor(events[0], buffers, trims) + ScheduleEvents(events[1..], buffers, trims)
  }

  /** The sources one event contributes: none or one. */
  function SourcesFor(e: R.Event, buffers: Buffers, trims: Trims): (r: seq<Source>)
    ensures |r| == if e.index in buffers then 1 else 0
    ensures forall k :: 0 <= k < |r| ==> r[k].index in buffers && r[k].length >= MinPlaySec
  {
    match SourceFor(e, buffers, trims)
    case None => []
    case Some(src) => [src]
  }

  /** Skipping is the only thing missing buffers do: the plan equals the plan
      of the loaded events alone, and with every pad loaded there is one
      source per event, at the event's own time. */
  lemma {:induction false} ScheduleSkipsOnlyMissing(events: seq<R.Event>, buffers: Buffers, trims: Trims)
    ensures ScheduleEvents(events, buffers, trims)
         == ScheduleEvents(LoadedEvents(events, buffers), buffers, trims)
    decreases |events|
  {
    if |events| > 0 {
      ScheduleSkipsOnlyMissing(events[1..], buffers, trims);
      var rest := LoadedEvents(events[1..], buffers);
      if events[0].index in buffers {
        assert LoadedEvents(events, buffers) == [events[0]] + rest;
        assert ([events[0]] + rest)[1..] == rest;
      } else {
        assert LoadedEvents(events, buffers) == rest;
      }
    }
  }

  lemma {:induction false} ScheduleAllLoaded(events: seq<R.Event>, buffers: Buffers, trims: Trims)
    requires forall k :: 0 <= k < |events| ==> events[k].index in buffers
    ensures |ScheduleEvents(events, buffers, trims)| == |events|
    ensures forall k :: 0 <= k < |events| ==>
      ScheduleEvents(events, buffers, trims)[k] == SourceFor(events[k], buffers, trims).value
    ensures forall k :: 0 <= k < |events| ==> ScheduleEvents(events, buffers, trims)[k].startAt == events[k].time
    decreases |events|
  {
    if |events| > 0 {
      ScheduleAllLoaded(events[1..], buffers, trims);
      var rest := ScheduleEvents(events[1..], buffers, trims);
      assert ScheduleEvents(events, buffers, trims) == [SourceFor(events[0], buffers, trims).value] + rest;
    }
  }

  /** One source per event whose pad has a buffer. */
  lemma ScheduleCount(events: seq<R.Event>, buffers: Buffers, trims: Trims)
    ensures |ScheduleEvents(events, buffers, trims)| == |LoadedEvents(events, buffers)|
  {
    var loaded := LoadedEvents(events, buffers);
    forall k | 0 <= k < |loaded|
      ensures loaded[k].index in buffers
    {
      assert loaded[k] in loaded;
    }
    ScheduleSkipsOnlyMissing(events, buffers, trims);
    ScheduleAllLoaded(loaded, buffers, trims);
  }

  /** Sources come out in the order of their events: the plan of two event
      lists one after the other is the first plan followed by the second. */
  lemma {:induction false} ScheduleConcat(a: seq<R.Event>, b: seq<R.Event>, buffers: Buffers, trims: Trims)
    ensures ScheduleEvents(a + b, buffers, trims) == ScheduleEvents(a, buffers, trims) + ScheduleEvents(b, buffers, trims)
    decreases |a|
  {
    if |a| > 0 {
      assert (a + b)[0] == a[0];
      assert (a + b)[1..] == a[1..] + b;
      ScheduleConcat(a[1..], b, buffers, trims);
    } else {
      assert a + b == b;
    }
  }

  /** Every source starts at the time of one of the events it came from. */
  lemma {:induction false} ScheduleTimesBounded(events: seq<R.Event>, buffers: Buffers, trims: Trims, lo: real)
    requires forall k :: 0 <= k < |events| ==> lo <= events[k].time
    ensures forall k :: 0 <= k < |ScheduleEvents(events, buffers, trims)| ==> lo <= ScheduleEvents(events, buffers, trims)[k].startAt
    decreases |events|
  {
    if |events| > 0 {
      ScheduleTimesBounded(events[1..], buffers, trims, lo);
    }
  }

  /** Sources in non-decreasing order of start time. */
  predicate StartsOrdered(r: seq<Source>)
  {
    forall i, j :: 0 <= i < j < |r| ==> r[i].startAt <= r[j].startAt
  }

  /** A recording in time order gives a plan in time order. */
  lemma {:induction false} ScheduleKeepsTimeOrder(events: seq<R.Event>, buffers: Buffers, trims: Trims)
    requires R.TimeOrdered(events)
    ensures StartsOrdered(ScheduleEvents(events, buffers, trims))
    decreases |events|
  {
    if |events| > 0 {
      var rest := ScheduleEvents(events[1..], buffers, trims);
      assert R.TimeOrdered(events[1..]);
      ScheduleKeepsTimeOrder(events[1..], buffers, trims);
      ScheduleTimesBounded(events[1..], buffers, trims, events[0].time);
      var r := ScheduleEvents(events, buffers, trims);
      if events[0].index in buffers {
        assert r == [SourceFor(events[0], buffers, trims).value] + rest;
        forall i, j | 0 <= i < j < |r|
          ensures r[i].startAt <= r[j].startAt
        {
          assert r[j] == rest[j - 1];
          if i > 0 {
            assert r[i] == rest[i - 1];
          } else {
            assert r[0].startAt == events[0].time <= rest[j - 1].startAt;
          }
        }
      } else {
        assert r == rest;
      }
    }
  }

  /** The Web Audio API's `AudioBufferSourceNode.start(when, offset,
      duration)` throws a `RangeError` when any of its arguments is
      negative. */
  predicate StartAccepted(src: Source)
  {
    src.startAt >= 0.0 && src.offset >= 0.0 && src.length >= 0.0
  }

  /** `downloadSequence` up to `startRendering`: a stereo context at the live
      sample rate, `ceil((duration + 0.5) * sampleRate)` frames long, with one
      source per event whose pad has a buffer. The trims are those in effect
      when the export is requested. The `start` calls run before the `try`,
      so one that throws rejects the export before anything is rendered. */
  function PlanRender(sq: R.Sequence, buffers: Buffers, trims: Trims, sampleRate: real, offlineSupported: bool)
    : (r: Result<RenderPlan, RenderError>)
    ensures !offlineSupported ==> r == Err(UnsupportedEnvironment)
    ensures offlineSupported ==>
      (r.Ok? <==> forall k :: 0 <= k < |ScheduleEvents(sq.events, buffers, trims)| ==>
                    StartAccepted(ScheduleEvents(sq.events, buffers, trims)[k]))
    ensures offlineSupported && r.Err? ==> r.error == StartRangeError
    ensures r.Ok? ==>
      && r.value.channels == 2
      && r.value.sampleRate == sampleRate
      && (sq.duration + 0.5) * sampleRate <= r.value.frameCount as real < (sq.duration + 0.5) * sampleRate + 1.0
      && r.value.sources == ScheduleEvents(sq.events, buffers, trims)
  {
    var frameCount := Ceil((sq.duration + RenderTailSec) * sampleRate);
    var sources := ScheduleEvents(sq.events, buffers, trims);
    if !offlineSupported then Err(UnsupportedEnvironment)
    else if forall k :: 0 <= k < |sources| ==> StartAccepted(sources[k]) then
      Ok(RenderPlan(RenderChannels, sampleRate, frameCount, sources))
    else Err(StartRangeError)
  }

  /** Every source reads its buffer from a non-negative offset when no
      stored trim starts before zero. */
  lemma {:induction false} ScheduleOffsetsNonneg(events: seq<R.Event>, buffers: Buffers, trims: Trims)
    requires forall i :: i in trims ==> trims[i].startSec >= 0.0
    ensures forall k :: 0 <= k < |ScheduleEvents(events, buffers, trims)| ==> ScheduleEvents(events, buffers, trims)[k].offset >= 0.0
    decreases |events|
  {
    if |events| > 0 {
      ScheduleOffsetsNonneg(events[1..], buffers, trims);
    }
  }

  /** A recording from a monotonic clock (no negative offsets) exported with
      trims that start at or after zero always renders. */
  lemma PlanRenderSucceeds(sq: R.Sequence, buffers: Buffers, trims: Trims, sampleRate: real)
    requires forall k :: 0 <= k < |sq.events| ==> sq.events[k].time >= 0.0
    requires forall i :: i in trims ==> trims[i].startSec >= 0.0
    ensures PlanRender(sq, buffers, trims, sampleRate, true).Ok?
  {
    ScheduleTimesBounded(sq.events, buffers, trims, 0.0);
    ScheduleOffsetsNonneg(sq.events, buffers, trims);
  }

  /** The source of a loaded event is part of the plan. */
  lemma {:induction false} ScheduleHasSource(events: seq<R.Event>, buffers: Buffers, trims: Trims, k: nat)
    requires k < |events| && events[k].index in buffers
    ensures SourceFor(events[k], buffers, trims).value in ScheduleEvents(events, buffers, trims)
    decreases k
  {
    var rest := ScheduleEvents(events[1..], buffers, trims);
    assert ScheduleEvents(events, buffers, trims) == SourcesFor(events[0], buffers, trims) + rest;
    if k > 0 {
      ScheduleHasSource(events[1..], buffers, trims, k - 1);
      assert events[1..][k - 1] == events[k];
    }
  }

  /** An event on a loaded pad whose stored trim starts before zero (as a
      drag on a very short buffer can leave it) makes the export fail. */
  lemma NegativeTrimFailsExport(sq: R.Sequence, buffers: Buffers, trims: Trims, sampleRate: real, k: nat)
    requires k < |sq.events| && sq.events[k].index in buffers && sq.events[k].index in trims
    requires trims[sq.events[k].index].startSec < 0.0
    ensures PlanRender(sq, buffers, trims, sampleRate, true) == Err(StartRangeError)
  {
    var sources := ScheduleEvents(sq.events, buffers, trims);
    var src := SourceFor(sq.events[k], buffers, trims).value;
    ScheduleHasSource(sq.events, buffers, trims, k);
    var j :| 0 <= j < |sources| && sources[j] == src;
    assert !StartAccepted(sources[j]);
  }

  /** Live playback and export play the same thing: the trigger the `k`-th
      live timer issues when it fires and the `k`-th event's render source
      exist together, start at the same buffer offset and last the same
      (clamped) length — both read the buffers and trims at that moment. */
  lemma LivePlaybackMatchesRender(s: LP.Session, sq: R.Sequence, now: real, k: nat, buffers: Buffers, trims: Trims)
    requires k < |sq.events|
    ensures var s' := LP.PlaySequence(s, Some(sq), now);
      var fired := LP.Fire(s', s'.handle.value[k], buffers, trims).trigger;
      var src := SourceFor(sq.events[k], buffers, trims);
      && (fired.Some? <==> src.Some?)
      && (src.Some? ==>
            && fired.value.index == src.value.index
            && fired.value.region.startSec == src.value.offset
            && Max(MinPlaySec, fired.value.region.endSec - fired.value.region.startSec) == src.value.length)
  {
  }

  /** Recording pad 0 at 0.0 s and pad 1 at 0.5 s gives a 1.0 s sequence;
      exporting it at 44100 Hz renders 66150 frames with the two sources at
      0.0 s and 0.5 s (frame 22050), and a trim of pad 0 edited to
      `{0.1, 0.3}` after recording is the one the export uses. */
  lemma ExportScenario()
    ensures var r0 := R.RecordHits(R.StartRecording(R.Initial, 10.0), [R.Hit(0, 10.0), R.Hit(1, 10.5)]);
      var r1 := R.StopRecording(r0, 7);
      var sq := r1.sequences[0];
      var buffers := map[0 := AudioBuffer(1.0), 1 := AudioBuffer(2.0)];
      var trims := map[0 := Region(0.1, 0.3)];
      var plan := PlanRender(sq, buffers, trims, 44100.0, true);
      && |r1.sequences| == 1
      && sq.duration == 1.0
      && plan.Ok?
      && plan.value.frameCount == 66150
      && plan.value.sources == [Source(0, 0.0, 0.1, 0.2), Source(1, 0.5, 0.0, 2.0)]
      && plan.value.sources[1].startAt * 44100.0 == 22050.0
  {
    var r := R.StartRecording(R.Initial, 10.0);
    var hits := [R.Hit(0, 10.0), R.Hit(1, 10.5)];
    R.RecordHitsAppends(r, hits);
    var r0 := R.RecordHits(r, hits);
    assert r0.recorded == [R.Event(0, 0.0), R.Event(1, 0.5)];
    var r1 := R.StopRecording(r0, 7);
    var sq := r1.sequences[0];
    assert sq.events == [R.Event(0, 0.0), R.Event(1, 0.5)];
    assert sq.duration == 1.0;
    var buffers := map[0 := AudioBuffer(1.0), 1 := AudioBuffer(2.0)];
    var trims := map[0 := Region(0.1, 0.3)];
    assert Ceil(1.5 * 44100.0) == 66150;
    ScheduleAllLoaded(sq.events, buffers, trims);
  }
}

=== FILE: sampler.dfy ===
/** `SamplerGUI.js` with the parts of the sequencer and the waveform editor
    it drives: the per-pad trim store, pad selection (with the optional
    load), the pad preview and its progress, `stopCurrent`, pad status, and
    the two sequencer entry points that call back into the GUI. Loading a
    sample and the clock are inputs; the DOM is left out. */
module SamplerGui {
  import opened Common
  import opened Audio
  import WF = WaveformCanvas
  import R = Recorder
  import LP = LivePlayback

  /** The status classes a pad button carries (`pad--active` is `Active`). */
  datatype PadClass = Loading | Loaded | Failed | Active

  /** A pad button: `!disabled`, whether its `ERR` label shows, its classes. */
  datatype Pad = Pad(enabled: bool, errorShown: bool, classes: set<PadClass>)

  /** The preview `playCurrent` started: the region, the scheduled start on
      the audio clock and the length used for the progress ratio. */
  datatype Preview = Preview(region: Region, playStart: real, playDur: real)

  /** The GUI's state together with the engine's buffers, the waveform
      editor, the recorder and the playback session. `currentSource` names
      the preview source by a fresh id so that `onended` can compare it;
      `animating` says an animation frame is pending. */
  datatype Gui = Gui(buffers: Buffers, pads: seq<Pad>, trims: Trims, currentIndex: int,
                     currentSource: Option<nat>, nextSource: nat, animating: bool,
                     preview: Option<Preview>, waveform: WF.Waveform,
                     recorder: R.Recorder, session: LP.Session)

  /** Seconds between `playCurrent` and the preview's scheduled start. */
  const PreviewLeadSec: real := 0.005

  /** Shortest preview length used for the progress ratio. */
  const MinPlaySec: real := 0.01

  /** A fresh GUI after `initPads(count)`: every pad disabled, nothing
      selected, nothing loaded or playing. */
  function Initial(count: nat): (g: Gui)
    ensures |g.pads| == count && g.currentIndex == -1 && g.trims == map[]
    ensures forall k :: 0 <= k < count ==> !g.pads[k].enabled
    ensures LP.Inv(g.session)
  {
    LP.IdleInv();
    Gui(map[], seq(count, _ => Pad(false, false, {})), map[], -1, None, 0, false, None,
        WF.Empty, R.Initial, LP.Idle)
  }

  // ---- pad status ----

  /** `markLoaded(i)`: an existing pad becomes enabled, hides its error and
      shows `loaded` instead of `loading`/`failed`. */
  function MarkLoaded(pads: seq<Pad>, i: int): (ps: seq<Pad>)
    ensures |ps| == |pads|
    ensures forall k :: 0 <= k < |pads| && k != i ==> ps[k] == pads[k]
    ensures 0 <= i < |pads| ==>
      && ps[i].enabled && !ps[i].errorShown
      && Loaded in ps[i].classes && Loading !in ps[i].classes && Failed !in ps[i].classes
      && (forall c :: c !in {Loading, Loaded, Failed} ==> (c in ps[i].classes <==> c in pads[i].classes))
  {
    if 0 <= i < |pads| then
      pads[i := Pad(true, false, pads[i].classes - {Loading, Failed} + {Loaded})]
    else pads
  }

  /** `markError(i, msg)`: an existing pad becomes disabled, shows its
      error and `failed` instead of `loading`/`loaded`. */
  function MarkError(pads: seq<Pad>, i: int): (ps: seq<Pad>)
    ensures |ps| == |pads|
    ensures forall k :: 0 <= k < |pads| && k != i ==> ps[k] == pads[k]
    ensures 0 <= i < |pads| ==>
      && !ps[i].enabled && ps[i].errorShown
      && Failed in ps[i].classes && Loading !in ps[i].classes && Loaded !in ps[i].classes
      && (forall c :: c !in {Loading, Loaded, Failed} ==> (c in ps[i].classes <==> c in pads[i].classes))
  {
    if 0 <= i < |pads| then
      pads[i := Pad(false, true, pads[i].classes - {Loading, Loaded} + {Failed})]
    else pads
  }

  /** A pad is never shown as both loaded and failed once it has been
      marked, and the last mark wins. */
  predicate StatusConsistent(p: Pad)
  {
    && !(Loaded in p.classes && Failed in p.classes)
    && (p.enabled <==> Loaded in p.classes)
    && (p.errorShown <==> Failed in p.classes)
  }

  lemma {:induction false} MarksConsistent(pads: seq<Pad>, i: int)
    requires 0 <= i < |pads|
    ensures StatusConsistent(MarkLoaded(pads, i)[i])
    ensures StatusConsistent(MarkError(pads, i)[i])
    ensures MarkError(MarkLoaded(pads, i), i)[i] == MarkError(pads, i)[i]
    ensures MarkLoaded(MarkError(pads, i), i)[i] == MarkLoaded(pads, i)[i]
    ensures MarkLoaded(MarkLoaded(pads, i), i) == MarkLoaded(pads, i)
    ensures MarkError(MarkError(pads, i), i) == MarkError(pads, i)
  {
    var p := pads[i];
    assert p.classes - {Loading, Failed} + {Loaded} - {Loading, Loaded} + {Failed}
        == p.classes - {Loading, Loaded} + {Failed};
    assert p.classes - {Loading, Loaded} + {Failed} - {Loading, Failed} + {Loaded}
        == p.classes - {Loading, Failed} + {Loaded};
    assert p.classes - {Loading, Failed} + {Loaded} - {Loading, Failed} + {Loaded}
        == p.classes - {Loading, Failed} + {Loaded};
    assert p.classes - {Loading, Loaded} + {Failed} - {Loading, Loaded} + {Failed}
        == p.classes - {Loading, Loaded} + {Failed};
  }

  /** `setActivePad(i)`: only pad `i`, if it exists, carries `Active`. */
  function SetActivePad(pads: seq<Pad>, i: int): (ps: seq<Pad>)
    ensures |ps| == |pads|
    ensures forall k :: 0 <= k < |pads| ==> (Active in ps[k].classes <==> k == i)
    ensures forall k :: 0 <= k < |pads| ==>
      ps[k].enabled == pads[k].enabled && ps[k].errorShown == pads[k].errorShown
      && ps[k].classes - {Active} == pads[k].classes - {Active}
  {
    seq(|pads|, k requires 0 <= k < |pads| =>
      pads[k].(classes := if k == i then pads[k].classes + {Active} else pads[k].classes - {Active}))
  }

  // ---- the trim store ----

  /** The `onChange` hook: a region change is stored for the selected pad,
      and ignored when no pad is selected. */
  function OnRegionChange(g: Gui, r: Region): (g': Gui)
    ensures g.currentIndex < 0 ==> g' == g
    ensures g.currentIndex >= 0 ==> g.currentIndex in g'.trims && g'.trims[g.currentIndex] == r
    ensures forall j :: j != g.currentIndex ==> (j in g'.trims <==> j in g.trims)
    ensures forall j :: j != g.currentIndex && j in g.trims ==> g'.trims[j] == g.trims[j]
    ensures g' == g.(trims := g'.trims)
  {
    if g.currentIndex >= 0 then g.(trims := g.trims[g.currentIndex := r]) else g
  }

  /** A pointer move over the overlay: the waveform's drag rule, then its
      `onChange` notification into the trim store. */
  function Drag(g: Gui, layout: WF.Layout, offset: real): (g': Gui)
    ensures g.waveform.drag == WF.NoDrag ==> g' == g
    ensures forall j :: j != g.currentIndex ==> (j in g'.trims <==> j in g.trims)
    ensures forall j :: j != g.currentIndex && j in g.trims ==> g'.trims[j] == g.trims[j]
    ensures g.waveform.drag != WF.NoDrag && g.currentIndex >= 0 ==>
      && g.currentIndex in g'.trims
      && g'.trims[g.currentIndex] == Region(g'.waveform.startSec, g'.waveform.endSec)
      && g'.trims[g.currentIndex].endSec - g'.trims[g.currentIndex].startSec >= WF.MinWidthSec
    ensures g'.waveform == WF.OnMove(g.waveform, layout, offset).waveform
    ensures g' == g.(waveform := g'.waveform, trims := g'.trims)
  {
    var moved := WF.OnMove(g.waveform, layout, offset);
    var g1 := g.(waveform := moved.waveform);
    match moved.notified
    case None => g1
    case Some(r) => OnRegionChange(g1, r)
  }

  /** The region a pad plays: `trims.get(i) || { waveform.startSec, waveform.endSec }`. */
  function PlayRegion(g: Gui, i: int): Region
  {
    TrimOr(g.trims, i, Region(g.waveform.startSec, g.waveform.endSec))
  }

  // ---- selection ----

  /** What the awaited `engine.loadOne` gave, when a load was needed. */
  datatype LoadOutcome = LoadOk(buffer: AudioBuffer) | LoadErr

  /** Whether `selectPad(i)` reaches the selection: the buffer was there or
      the load succeeded. */
  predicate SelectSucceeds(g: Gui, i: int, load: LoadOutcome)
  {
    i in g.buffers || load.LoadOk?
  }

  /** The buffer pad `i` has after the optional load. */
  function BufferAfterLoad(g: Gui, i: int, load: LoadOutcome): AudioBuffer
    requires SelectSucceeds(g, i, load)
  {
    if i in g.buffers then g.buffers[i] else load.buffer
  }

  /** `selectPad(i)`: with no buffer, the pad shows `loading` and the sample
      is loaded; a failed load marks the pad failed and returns. With a
      buffer, pad `i` becomes current and active, and the waveform shows the
      buffer with the stored trim, or the whole buffer. */
  function SelectPad(g: Gui, i: int, load: LoadOutcome): (g': Gui)
    ensures |g'.pads| == |g.pads|
    ensures g'.trims == g.trims && g'.recorder == g.recorder && g'.session == g.session
    ensures SelectSucceeds(g, i, load) ==>
      var buf := BufferAfterLoad(g, i, load);
      && g'.buffers == g.buffers[i := buf]
      && g'.currentIndex == i
      && g'.waveform.buffer == Some(buf)
      && (forall k :: 0 <= k < |g'.pads| ==> (Active in g'.pads[k].classes <==> k == i))
      && (0 <= i < |g.pads| && i !in g.buffers ==> g'.pads[i].enabled && Loaded in g'.pads[i].classes)
    ensures SelectSucceeds(g, i, load) ==>
      var buf := BufferAfterLoad(g, i, load);
      var t := TrimOr(g.trims, i, FullRegion(buf));
      && g'.waveform == WF.SetRegion(WF.SetBuffer(g.waveform, Some(buf), WF.Omitted), t.startSec, t.endSec)
      && (forall k :: 0 <= k < |g.pads| && k != i ==>
            && g'.pads[k].enabled == g.pads[k].enabled && g'.pads[k].errorShown == g.pads[k].errorShown
            && g'.pads[k].classes - {Active} == g.pads[k].classes - {Active})
    ensures !SelectSucceeds(g, i, load) ==>
      && g'.buffers == g.buffers && g'.currentIndex == g.currentIndex && g'.waveform == g.waveform
      && (0 <= i < |g.pads| ==> !g'.pads[i].enabled && Failed in g'.pads[i].classes)
      && (forall k :: 0 <= k < |g.pads| && k != i ==> g'.pads[k] == g.pads[k])
    ensures g' == g.(buffers := g'.buffers, pads := g'.pads, currentIndex := g'.currentIndex, waveform := g'.waveform)
  {
    var g1 := LoadPad(g, i, load);
    if i !in g1.buffers then g1
    else
      var buf := g1.buffers[i];
      var t := TrimOr(g1.trims, i, FullRegion(buf));
      WF.SetBufferWithRegion(g1.waveform, buf, t.startSec, t.endSec);
      g1.(currentIndex := i, pads := SetActivePad(g1.pads, i),
          waveform := WF.SetBuffer(g1.waveform, Some(buf), WF.Passed(Some(t.startSec), Some(t.endSec))))
  }

  /** The load step of `selectPad(i)`: nothing when the buffer is there;
      otherwise the pad shows `loading` and then the outcome marks it loaded
      (with the buffer stored) or failed. */
  function LoadPad(g: Gui, i: int, load: LoadOutcome): (g1: Gui)
    ensures i in g.buffers ==> g1 == g
    ensures i !in g.buffers ==>
      && |g1.pads| == |g.pads|
      && (forall k :: 0 <= k < |g.pads| && k != i ==> g1.pads[k] == g.pads[k])
      && (load.LoadOk? ==>
            && g1.buffers == g.buffers[i := load.buffer]
            && (0 <= i < |g.pads| ==> g1.pads[i].enabled && Loaded in g1.pads[i].classes))
      && (load.LoadErr? ==>
            && g1.buffers == g.buffers
            && (0 <= i < |g.pads| ==> !g1.pads[i].enabled && Failed in g1.pads[i].classes))
    ensures g1 == g.(buffers := g1.buffers, pads := g1.pads)
  {
    if i in g.buffers then g
    else
      var loading := if 0 <= i < |g.pads| then g.pads[i := g.pads[i].(enabled := false, classes := g.pads[i].classes + {Loading})]
                     else g.pads;
      match load
      case LoadErr => g.(pads := MarkError(loading, i))
      case LoadOk(b) => g.(buffers := g.buffers[i := b], pads := MarkLoaded(loading, i))
  }

  /** After a successful selection the waveform shows the pad's region: the
      stored trim when it fits the buffer, and the whole buffer when there is
      no trim (and the buffer is at least 0.01 s long). */
  lemma SelectShowsTrim(g: Gui, i: int, load: LoadOutcome)
    requires SelectSucceeds(g, i, load)
    ensures var g' := SelectPad(g, i, load);
      var buf := BufferAfterLoad(g, i, load);
      && (i !in g.trims && buf.duration >= WF.MinWidthSec ==>
            Region(g'.waveform.startSec, g'.waveform.endSec) == FullRegion(buf))
      && (i in g.trims && 0.0 <= g.trims[i].startSec
          && g.trims[i].startSec + WF.MinWidthSec <= g.trims[i].endSec <= buf.duration ==>
            Region(g'.waveform.startSec, g'.waveform.endSec) == g.trims[i])
  {
  }

  // ---- pad hits and preview ----

  /** `onPad(i)` and what it passes to `engine.trigger`. */
  datatype PadHit = PadHit(gui: Gui, trigger: Trigger)

  /** `onPad(i)` at clock value `now`: select (and maybe load) the pad, then
      record the hit and trigger the stored trim, else the waveform's
      region. The trigger is issued even when the load failed. */
  function OnPad(g: Gui, i: int, load: LoadOutcome, now: real): (r: PadHit)
    ensures var s := SelectPad(g, i, load);
      && r.trigger.index == i
      && (i in g.trims ==> r.trigger.region == g.trims[i])
      && (i !in g.trims ==> r.trigger.region == Region(s.waveform.startSec, s.waveform.endSec))
      && r.gui == s.(recorder := r.gui.recorder)
    ensures !g.recorder.isRecording ==> r.gui.recorder == g.recorder
    ensures g.recorder.isRecording ==>
      r.gui.recorder.recorded == g.recorder.recorded + [R.Event(i, now - g.recorder.t0)]
    ensures r.gui.recorder == R.RecordHit(g.recorder, i, now)
  {
    var s := SelectPad(g, i, load);
    var region := PlayRegion(s, i);
    PadHit(s.(recorder := R.RecordHit(s.recorder, i, now)), Trigger(i, region))
  }

  /** Pressing play after a pad hit whose sample is available replays
      exactly what the hit triggered: the hit made the pad current and its
      trigger region is the one `playCurrent` reads. */
  lemma PlayAfterPadHitReplays(g: Gui, i: int, load: LoadOutcome, t1: real, t2: real)
    requires i >= 0 && SelectSucceeds(g, i, load)
    ensures var hit := OnPad(g, i, load, t1);
      PlayCurrent(hit.gui, t2).trigger == Some(hit.trigger)
  {
  }

  /** `playCurrent()` and the trigger it issued, if any. */
  datatype Played = Played(gui: Gui, trigger: Option<Trigger>)

  /** `playCurrent()` at clock value `now`: nothing without a current pad or
      its buffer; otherwise the previous preview is stopped, the pad's
      region is triggered as a fresh source, and the progress animation
      starts with length `max(0.01, end - start)`. */
  function PlayCurrent(g: Gui, now: real): (r: Played)
    ensures g.currentIndex < 0 || g.currentIndex !in g.buffers ==> r == Played(g, None)
    ensures g.currentIndex >= 0 && g.currentIndex in g.buffers ==>
      var region := TrimOr(g.trims, g.currentIndex, Region(g.waveform.startSec, g.waveform.endSec));
      && r.trigger == Some(Trigger(g.currentIndex, region))
      && r.gui.currentSource == Some(g.nextSource) && r.gui.nextSource > g.nextSource
      && r.gui.animating
      && r.gui.preview.Some?
      && r.gui.preview.value.region == region
      && r.gui.preview.value.playStart == now + PreviewLeadSec
      && r.gui.preview.value.playDur >= MinPlaySec
      && r.gui.preview.value.playDur >= region.endSec - region.startSec
      && r.gui.preview.value.playDur == Max(MinPlaySec, region.endSec - region.startSec)
      && (region.endSec - region.startSec >= MinPlaySec ==>
            r.gui.preview.value.playDur == region.endSec - region.startSec)
    ensures r.gui == g.(currentSource := r.gui.currentSource, nextSource := r.gui.nextSource,
                        animating := r.gui.animating, preview := r.gui.preview)
    ensures r.gui.trims == g.trims && r.gui.buffers == g.buffers && r.gui.session == g.session
      && r.gui.recorder == g.recorder && r.gui.currentIndex == g.currentIndex
  {
    var i := g.currentIndex;
    if i < 0 || i !in g.buffers then Played(g, None)
    else
      var region := PlayRegion(g, i);
      var dur := Max(MinPlaySec, region.endSec - region.startSec);
      var g' := g.(currentSource := Some(g.nextSource), nextSource := g.nextSource + 1,
                   animating := true, preview := Some(Preview(region, now + PreviewLeadSec, dur)));
      Played(g', Some(Trigger(i, region)))
  }

  /** After a drag of either handle on the selected, loaded pad, the next
      preview plays exactly the region the editor now shows: the drag's
      notification became the pad's trim. */
  lemma DragThenPlay(g: Gui, layout: WF.Layout, offset: real, now: real)
    requires g.waveform.drag != WF.NoDrag && g.currentIndex >= 0 && g.currentIndex in g.buffers
    ensures var g' := Drag(g, layout, offset);
      var w := WF.OnMove(g.waveform, layout, offset).waveform;
      PlayCurrent(g', now).trigger == Some(Trigger(g.currentIndex, Region(w.startSec, w.endSec)))
  {
  }

  /** The progress ratio `max(0, min(1, (now - playStart) / playDur))`. */
  function Progress(p: Preview, now: real): (ratio: real)
    requires p.playDur > 0.0
    ensures 0.0 <= ratio <= 1.0
    ensures now <= p.playStart ==> ratio == 0.0
    ensures now >= p.playStart + p.playDur ==> ratio == 1.0
    ensures p.playStart <= now <= p.playStart + p.playDur ==> ratio == (now - p.playStart) / p.playDur
  {
    var t := now - p.playStart;
    RatioBounds(t, p.playDur);
    Max(0.0, Min(1.0, t / p.playDur))
  }

  lemma RatioBounds(t: real, d: real)
    requires d > 0.0
    ensures t <= 0.0 ==> t / d <= 0.0
    ensures t >= d ==> t / d >= 1.0
    ensures 0.0 <= t <= d ==> 0.0 <= t / d <= 1.0
  {
    var q := t / d;
    assert q * d == t;
  }

  /** The playhead position for a ratio: `start + ratio * (end - start)`. */
  function PlayheadAt(region: Region, ratio: real): (sec: real)
    requires 0.0 <= ratio <= 1.0
    ensures region.startSec <= region.endSec ==> region.startSec <= sec <= region.endSec
    ensures ratio == 0.0 ==> sec == region.startSec
    ensures ratio == 1.0 ==> sec == region.endSec
  {
    var span := region.endSec - region.startSec;
    FractionOfSpan(ratio, span);
    region.startSec + ratio * span
  }

  lemma FractionOfSpan(ratio: real, span: real)
    requires 0.0 <= ratio <= 1.0
    ensures span >= 0.0 ==> 0.0 <= ratio * span <= span
  {
    if span >= 0.0 {
      assert ratio * span <= 1.0 * span;
    }
  }

  /** One animation frame at clock value `now`: the playhead moves to the
      current position within the region, and another frame is requested
      while the ratio is below 1 and the source is still current. A frame
      that was cancelled does nothing. */
  function Tick(g: Gui, now: real): (g': Gui)
    requires g.preview.Some? ==> g.preview.value.playDur > 0.0
    ensures !g.animating || g.preview.None? ==> g' == g
    ensures g.animating && g.preview.Some? ==>
      var p := g.preview.value;
      && g'.waveform.playhead == Some(PlayheadAt(p.region, Progress(p, now)))
      && (p.region.startSec <= p.region.endSec ==>
            p.region.startSec <= g'.waveform.playhead.value <= p.region.endSec)
      && (g'.animating <==> Progress(p, now) < 1.0 && g.currentSource.Some?)
      && (now >= p.playStart + p.playDur ==> !g'.animating && g'.waveform.playhead == Some(p.region.endSec))
    ensures g'.waveform.startSec == g.waveform.startSec && g'.waveform.endSec == g.waveform.endSec
    ensures g'.trims == g.trims && g'.currentSource == g.currentSource && g'.preview == g.preview
    ensures g' == g.(waveform := WF.SetPlayhead(g.waveform, g'.waveform.playhead), animating := g'.animating)
  {
    if !g.animating || g.preview.None? then g
    else
      var p := g.preview.value;
      var ratio := Progress(p, now);
      g.(waveform := WF.SetPlayhead(g.waveform, Some(PlayheadAt(p.region, ratio))),
         animating := ratio < 1.0 && g.currentSource.Some?)
  }

  /** Frames drawn later never draw the playhead further left: over a
      region whose start is not after its end, the playhead moves forward
      with the clock. */
  lemma TickPlayheadMonotone(g: Gui, now1: real, now2: real)
    requires g.animating && g.preview.Some? && g.preview.value.playDur > 0.0
    requires g.preview.value.region.startSec <= g.preview.value.region.endSec
    requires now1 <= now2
    ensures Tick(g, now1).waveform.playhead.value <= Tick(g, now2).waveform.playhead.value
  {
    var p := g.preview.value;
    ProgressMonotone(p, now1, now2);
    PlayheadAtMonotone(p.region, Progress(p, now1), Progress(p, now2));
  }

  lemma PlayheadAtMonotone(region: Region, r1: real, r2: real)
    requires 0.0 <= r1 <= r2 <= 1.0 && region.startSec <= region.endSec
    ensures PlayheadAt(region, r1) <= PlayheadAt(region, r2)
  {
    SpanMonotone(region.startSec, region.endSec, r1, r2);
  }

  lemma SpanMonotone(s: real, e: real, a: real, b: real)
    requires a <= b && s <= e
    ensures s + a * (e - s) <= s + b * (e - s)
  {
    MulNonneg(b - a, e - s);
  }

  lemma MulNonneg(x: real, y: real)
    requires 0.0 <= x && 0.0 <= y
    ensures 0.0 <= x * y
  {
  }

  lemma ProgressMonotone(p: Preview, now1: real, now2: real)
    requires p.playDur > 0.0 && now1 <= now2
    ensures Progress(p, now1) <= Progress(p, now2)
  {
    var t1 := now1 - p.playStart;
    var t2 := now2 - p.playStart;
    DivMonotone(t1, t2, p.playDur);
  }

  lemma DivMonotone(a: real, b: real, d: real)
    requires d > 0.0 && a <= b
    ensures a / d <= b / d
  {
    var qa := a / d;
    var qb := b / d;
    assert qa * d == a;
    assert qb * d == b;
    assert (qb - qa) * d == b - a;
  }

  /** The `onended` callback of preview source `src`: it forgets the source
      only if it is still the current one, but always cancels the pending
      animation frame and clears the playhead. */
  function OnEnded(g: Gui, src: nat): (g': Gui)
    ensures g.currentSource == Some(src) ==> g'.currentSource.None?
    ensures g.currentSource != Some(src) ==> g'.currentSource == g.currentSource
    ensures !g'.animating && g'.waveform.playhead.None?
    ensures g'.trims == g.trims && g'.session == g.session && g'.recorder == g.recorder
    ensures g' == g.(currentSource := g'.currentSource, animating := false, waveform := g.waveform.(playhead := None))
  {
    g.(currentSource := if g.currentSource == Some(src) then None else g.currentSource,
       animating := false, waveform := WF.ClearPlayhead(g.waveform))
  }

  /** The end of a replaced preview still stops the animation of the one
      that replaced it: playing twice and then receiving the first source's
      `onended` leaves the second source current but no frame pending. */
  lemma StaleEndStopsNewPreview(g: Gui, now1: real, now2: real)
    requires g.currentIndex >= 0 && g.currentIndex in g.buffers
    ensures var g1 := PlayCurrent(g, now1).gui;
      var g2 := PlayCurrent(g1, now2).gui;
      var g3 := OnEnded(g2, g1.currentSource.value);
      && g3.currentSource == g2.currentSource && g2.currentSource != g1.currentSource
      && !g3.animating
  {
  }

  /** `stopCurrent()`: stops the preview and its animation, stops sequence
      playback through the sequencer, and clears the playhead. */
  function StopCurrent(g: Gui): (g': Gui)
    ensures g'.currentSource.None? && !g'.animating && g'.waveform.playhead.None?
    ensures g'.session.handle.None?
    ensures forall id :: id in g'.session.timers <==> id in g.session.timers && id !in LP.Owned(g.session)
    ensures LP.Inv(g.session) ==> g'.session.timers == map[] && LP.Inv(g'.session)
    ensures g'.trims == g.trims && g'.buffers == g.buffers && g'.recorder == g.recorder
      && g'.currentIndex == g.currentIndex
    ensures g'.waveform.startSec == g.waveform.startSec && g'.waveform.endSec == g.waveform.endSec
    ensures g' == g.(currentSource := None, animating := false, session := g'.session,
                     waveform := g.waveform.(playhead := None))
  {
    g.(currentSource := None, animating := false, session := LP.StopPlayback(g.session),
       waveform := WF.ClearPlayhead(g.waveform))
  }

  // ---- the sequencer's calls into the GUI ----

  /** The sequencer's `startRecording` at clock value `now`: when idle, it
      first calls `stopCurrent`, so starting a recording also ends any
      sequence playback and preview. */
  function StartRecording(g: Gui, now: real): (g': Gui)
    ensures g.recorder.isRecording ==> g' == g
    ensures !g.recorder.isRecording ==>
      && g'.recorder == R.StartRecording(g.recorder, now)
      && g'.session.handle.None? && g'.currentSource.None? && !g'.animating
      && (LP.Inv(g.session) ==> g'.session.timers == map[])
    ensures LP.Inv(g.session) ==> LP.Inv(g'.session)
    ensures g'.trims == g.trims && g'.buffers == g.buffers
    ensures !g.recorder.isRecording ==> g'.waveform == g.waveform.(playhead := None)
    ensures g' == g.(currentSource := g'.currentSource, animating := g'.animating, session := g'.session,
                     recorder := g'.recorder, waveform := g'.waveform)
  {
    if g.recorder.isRecording then g
    else
      var g1 := StopCurrent(g);
      g1.(recorder := R.StartRecording(g1.recorder, now))
  }

  /** The sequencer's `playSequence(seq)` at clock value `now`: stop the
      previous session; with a sequence, call `stopCurrent` (which stops the
      already stopped session again) and schedule the new one. The session
      that results is exactly the sequencer's own `playSequence`. */
  function PlaySequence(g: Gui, sq: Option<R.Sequence>, now: real): (g': Gui)
    ensures g'.session == LP.PlaySequence(g.session, sq, now)
    ensures LP.Inv(g.session) ==> LP.Inv(g'.session)
    ensures sq.Some? ==> g'.currentSource.None? && !g'.animating
    ensures sq.None? ==> g'.currentSource == g.currentSource && g'.animating == g.animating
    ensures g'.trims == g.trims && g'.buffers == g.buffers && g'.recorder == g.recorder
    ensures sq.Some? ==> g'.waveform == g.waveform.(playhead := None)
    ensures sq.None? ==> g'.waveform == g.waveform
    ensures g' == g.(session := g'.session, currentSource := g'.currentSource, animating := g'.animating,
                     waveform := g'.waveform)
  {
    var g1 := g.(session := LP.StopPlayback(g.session));
    if sq.None? then g1
    else
      var g2 := StopCurrent(g1);
      LP.StopIdempotent(g.session);
      LP.ScheduleShape(g2.session, sq.value, now);
      g2.(session := LP.Schedule(g2.session, sq.value, now))
  }

  /** Timer `id` of the session fires; the sequencer reads the engine's
      buffers and the GUI's trims at that moment. */
  function FireTimer(g: Gui, id: nat): (r: Played)
    ensures r.gui.session == LP.Fire(g.session, id, g.buffers, g.trims).session
    ensures r.trigger == LP.Fire(g.session, id, g.buffers, g.trims).trigger
    ensures r.trigger.Some? ==>
      && r.trigger.value.index in g.buffers
      && r.trigger.value.region == TrimOr(g.trims, r.trigger.value.index, FullRegion(g.buffers[r.trigger.value.index]))
    ensures LP.Inv(g.session) ==> LP.Inv(r.gui.session)
    ensures r.gui == g.(session := r.gui.session)
  {
    var f := LP.Fire(g.session, id, g.buffers, g.trims);
    Played(g.(session := f.session), f.trigger)
  }

  /** A pad sounds the same from the preview and from a sequence: after
      selecting a loaded pad (index 0 or more) at least 0.01 s long,
      `playCurrent` triggers
      the region a sequence timer for that pad triggers. */
  lemma PreviewMatchesSequence(g: Gui, i: int, load: LoadOutcome, now: real, id: nat)
    requires i >= 0 && SelectSucceeds(g, i, load)
    requires BufferAfterLoad(g, i, load).duration >= WF.MinWidthSec
    ensures var s := SelectPad(g, i, load);
      var played := PlayCurrent(s, now);
      && played.trigger.Some?
      && (id in s.session.timers && s.session.timers[id].action == LP.PlayPad(i) ==>
            FireTimer(s, id).trigger == played.trigger)
  {
    SelectShowsTrim(g, i, load);
    var s := SelectPad(g, i, load);
    var buf := BufferAfterLoad(g, i, load);
    assert s.currentIndex == i && i in s.buffers && s.buffers[i] == buf;
    assert PlayRegion(s, i) == TrimOr(s.trims, i, FullRegion(buf));
    var played := PlayCurrent(s, now);
    assert played.trigger == Some(Trigger(i, PlayRegion(s, i)));
    if id in s.session.timers && s.session.timers[id].action == LP.PlayPad(i) {
      var f := LP.Fire(s.session, id, s.buffers, s.trims);
      assert f.trigger == Some(Trigger(i, TrimOr(s.trims, i, FullRegion(buf))));
      assert FireTimer(s, id).trigger == f.trigger;
    }
  }
}

=== FILE: wav.dfy ===
/** `encodeWAV` in `Sequencer.js`: a canonical 44-byte RIFF/WAVE header
    (one `fmt ` chunk, PCM format 1, 16 bits per sample) followed by the
    interleaved samples as little-endian two's-complement 16-bit integers.
    Bytes are integers in 0..255; DataView's modular conversions are
    written out. */
module WavEncoder {
  import opened Common

  type Byte = b: int | 0 <= b < 256

  const Two16: int := 65536
  const Two32: int := 4294967296

  // ---- little-endian integers ----

  function LE16(v: int): (b: seq<Byte>)
    requires 0 <= v < Two16
    ensures |b| == 2
  {
    [v % 256, v / 256]
  }

  function LE32(v: int): (b: seq<Byte>)
    requires 0 <= v < Two32
    ensures |b| == 4
  {
    [v % 256, (v / 256) % 256, (v / 256 / 256) % 256, v / 256 / 256 / 256]
  }

  /** `view.setUint16(off, v, true)`: ToUint16 keeps `v` modulo 2^16. */
  function U16(v: int): (b: seq<Byte>)
    ensures |b| == 2
  {
    LE16(v % Two16)
  }

  /** `view.setUint32(off, v, true)`: ToUint32 keeps `v` modulo 2^32. */
  function U32(v: int): (b: seq<Byte>)
    ensures |b| == 4
  {
    LE32(v % Two32)
  }

  function ReadU16(b: seq<Byte>, off: nat): int
    requires off + 2 <= |b|
  {
    b[off] as int + 256 * (b[off + 1] as int)
  }

  function ReadU32(b: seq<Byte>, off: nat): int
    requires off + 4 <= |b|
  {
    b[off] as int + 256 * (b[off + 1] as int) + 65536 * (b[off + 2] as int) + 16777216 * (b[off + 3] as int)
  }

  /** Reading a written field gives back the stored value, reduced modulo
      the field width. */
  lemma ReadU16OfU16(v: int)
    ensures ReadU16(U16(v), 0) == v % Two16
  {
  }

  lemma ReadU32OfU32(v: int)
    ensures ReadU32(U32(v), 0) == v % Two32
  {
    var w := v % Two32;
    var q1 := w / 256;
    var q2 := q1 / 256;
    var q3 := q2 / 256;
    assert w == w % 256 + 256 * q1;
    assert q1 == q1 % 256 + 256 * q2;
    assert q2 == q2 % 256 + 256 * q3;
    assert LE32(w) == [w % 256, q1 % 256, q2 % 256, q3];
  }

  /** `writeString`: one byte per character code. */
  function Ascii(s: string): (b: seq<Byte>)
    requires forall i :: 0 <= i < |s| ==> s[i] as int < 256
    ensures |b| == |s|
    ensures forall i :: 0 <= i < |s| ==> b[i] == s[i] as int
  {
    seq(|s|, i requires 0 <= i < |s| => s[i] as int)
  }

  // ---- sample conversion ----

  /** ToIntegerOrInfinity: truncation toward zero. */
  function Trunc(x: real): (n: int)
    ensures x >= 0.0 ==> n as real <= x < n as real + 1.0
    ensures x < 0.0 ==> n as real - 1.0 < x <= n as real
  {
    if x >= 0.0 then x.Floor else -((-x).Floor)
  }

  /** One float sample as `setInt16` stores it: clamped to [-1, 1], scaled by
      32768 when negative and 32767 otherwise, truncated toward zero. */
  function ToPcm16(s: real): (v: int)
    ensures -32768 <= v <= 32767
    ensures s >= 1.0 ==> v == 32767
    ensures s <= -1.0 ==> v == -32768
    ensures s >= 0.0 ==> v >= 0
    ensures s < 0.0 ==> v <= 0
    ensures 0.0 <= s <= 1.0 ==> v as real <= s * 32767.0 < v as real + 1.0
    ensures -1.0 <= s < 0.0 ==> v as real - 1.0 < s * 32768.0 <= v as real
  {
    var c := Clamp(s, -1.0, 1.0);
    Trunc(if c < 0.0 then c * 32768.0 else c * 32767.0)
  }

  /** A louder input never gives a smaller code. */
  lemma ToPcm16Monotone(a: real, b: real)
    requires a <= b
    ensures ToPcm16(a) <= ToPcm16(b)
  {
    var ca := Clamp(a, -1.0, 1.0);
    var cb := Clamp(b, -1.0, 1.0);
    assert ca <= cb;
    if 0.0 <= ca {
      TruncMonotone(ca * 32767.0, cb * 32767.0);
    } else if cb < 0.0 {
      TruncMonotone(ca * 32768.0, cb * 32768.0);
    }
  }

  lemma TruncMonotone(x: real, y: real)
    requires x <= y
    requires (x >= 0.0) == (y >= 0.0)
    ensures Trunc(x) <= Trunc(y)
  {
  }

  /** The conversion truncates rather than rounds: 0.5 becomes 16383 (from
      16383.5) and -0.5 becomes -16384. */
  lemma ToPcm16Truncates()
    ensures ToPcm16(0.5) == 16383
    ensures ToPcm16(-0.5) == -16384
  {
    assert Trunc(0.5 * 32767.0) == 16383;
    assert Trunc(-0.5 * 32768.0) == -16384;
  }

  /** `setInt16(off, v, true)` for an in-range `v`: two's complement. */
  function I16(v: int): (b: seq<Byte>)
    requires -32768 <= v < 32768
    ensures |b| == 2
  {
    LE16(v % Two16)
  }

  /** `getInt16(off, true)`. */
  function ReadI16(b: seq<Byte>, off: nat): (v: int)
    requires off + 2 <= |b|
    ensures -32768 <= v < 32768
  {
    var u := ReadU16(b, off);
    if u >= 32768 then u - Two16 else u
  }

  lemma ReadI16OfI16(v: int)
    requires -32768 <= v < 32768
    ensures ReadI16(I16(v), 0) == v
  {
  }

  lemma ReadI16Concat(a: seq<Byte>, b: seq<Byte>, off: nat)
    ensures off + 2 <= |a| ==> ReadI16(a + b, off) == ReadI16(a, off)
    ensures off + 2 <= |b| ==> ReadI16(a + b, |a| + off) == ReadI16(b, off)
  {
  }

  // ---- the rendered buffer ----

  /** `audioBuffer.length` frames and `getChannelData(c)` per channel. */
  datatype PcmBuffer = PcmBuffer(length: nat, channels: seq<seq<real>>)

  /** Every channel holds `length` samples, as an AudioBuffer guarantees. */
  predicate WellFormed(b: PcmBuffer)
  {
    forall c :: 0 <= c < |b.channels| ==> |b.channels[c]| == b.length
  }

  /** The samples of frame `i` from channels `0 .. n-1`. */
  function Frame(b: PcmBuffer, n: nat, i: nat): (f: seq<real>)
    requires WellFormed(b) && n <= |b.channels| && i < b.length
    ensures |f| == n
  {
    seq(n, c requires 0 <= c < n => b.channels[c][i])
  }

  /** The `output` array after the first `frames` iterations of the
      interleaving loop. */
  function Interleave(b: PcmBuffer, n: nat, frames: nat): (xs: seq<real>)
    requires WellFormed(b) && n <= |b.channels| && frames <= b.length
    ensures |xs| == frames * n
  {
    if frames == 0 then []
    else Interleave(b, n, frames - 1) + Frame(b, n, frames - 1)
  }

  /** Frame `i` occupies positions `i * n .. i * n + n - 1`. */
  lemma FrameIndex(i: nat, j: nat, n: nat, frames: nat)
    requires i < frames && j < n
    ensures i * n + j < (i + 1) * n <= frames * n
  {
    assert (i + 1) * n == i * n + n;
    MulLe(i + 1, frames, n);
  }

  lemma MulLe(a: nat, b: nat, c: nat)
    requires a <= b
    ensures a * c <= b * c
  {
  }

  /** Sample `j` of frame `i` sits at position `i * n + j`. */
  lemma {:induction false} InterleaveAt(b: PcmBuffer, n: nat, frames: nat, i: nat, j: nat)
    requires WellFormed(b) && n <= |b.channels| && frames <= b.length
    requires i < frames && j < n
    ensures i * n + j < frames * n
    ensures Interleave(b, n, frames)[i * n + j] == b.channels[j][i]
    decreases frames
  {
    FrameIndex(i, j, n, frames);
    var prev := Interleave(b, n, frames - 1);
    if i == frames - 1 {
      assert i * n + j == |prev| + j;
    } else {
      InterleaveAt(b, n, frames - 1, i, j);
    }
  }

  /** The converted samples in order, two bytes each. */
  function SampleBytes(xs: seq<real>): (bs: seq<Byte>)
    ensures |bs| == 2 * |xs|
  {
    if |xs| == 0 then []
    else SampleBytes(xs[..|xs| - 1]) + I16(ToPcm16(xs[|xs| - 1]))
  }

  /** Sample `k` is stored at byte `2k`. */
  lemma {:induction false} SampleBytesAt(xs: seq<real>, k: nat)
    requires k < |xs|
    ensures ReadI16(SampleBytes(xs), 2 * k) == ToPcm16(xs[k])
    decreases |xs|
  {
    var init := xs[..|xs| - 1];
    ReadI16Concat(SampleBytes(init), I16(ToPcm16(xs[|xs| - 1])), 2 * k);
    if k < |xs| - 1 {
      SampleBytesAt(init, k);
    } else {
      ReadI16Concat(SampleBytes(init), I16(ToPcm16(xs[|xs| - 1])), 0);
      ReadI16OfI16(ToPcm16(xs[|xs| - 1]));
    }
  }

  /** `numSamples * numChannels`: the number of 16-bit samples written. */
  function SampleCount(b: PcmBuffer, n: nat): nat
  {
    b.length * n
  }

  /** `numSamples * numChannels * 2`. */
  function DataSize(b: PcmBuffer, n: nat): nat
  {
    2 * SampleCount(b, n)
  }

  /** `sampleRate * numChannels * 2`: the byte-rate field. */
  function ByteRate(sampleRate: int, n: int): int
  {
    sampleRate * n * 2
  }

  /** The 44 header bytes, field by field as the encoder writes them. */
  function Header(n: nat, sampleRate: nat, dataSize: nat): (h: seq<Byte>)
    ensures |h| == 44
  {
    Ascii("RIFF") + U32(36 + dataSize) + Ascii("WAVE")
    + Ascii("fmt ") + U32(16) + U16(1) + U16(n) + U32(sampleRate)
    + U32(ByteRate(sampleRate, n)) + U16(n * 2) + U16(16)
    + Ascii("data") + U32(dataSize)
  }

  /** The whole file as a pure function of the buffer. */
  function WavBytes(b: PcmBuffer, n: nat, sampleRate: nat): (bytes: seq<Byte>)
    requires WellFormed(b) && n <= |b.channels|
    ensures |bytes| == 44 + DataSize(b, n)
  {
    Header(n, sampleRate, DataSize(b, n)) + SampleBytes(Interleave(b, n, b.length))
  }

  /** Where each sample lands in the file: sample `j` of frame `i` is the
      16-bit value at byte `44 + 2 * (i * n + j)`. */
  lemma WavSampleAt(b: PcmBuffer, n: nat, sampleRate: nat, i: nat, j: nat)
    requires WellFormed(b) && n <= |b.channels|
    requires i < b.length && j < n
    ensures i * n + j < b.length * n
    ensures ReadI16(WavBytes(b, n, sampleRate), 44 + 2 * (i * n + j)) == ToPcm16(b.channels[j][i])
  {
    var xs := Interleave(b, n, b.length);
    InterleaveAt(b, n, b.length, i, j);
    SampleBytesAt(xs, i * n + j);
    ReadI16Concat(Header(n, sampleRate, DataSize(b, n)), SampleBytes(xs), 2 * (i * n + j));
  }

  /** The first loop of `encodeWAV`: frame by frame, channel by channel. */
  method InterleaveChannels(b: PcmBuffer, n: nat) returns (output: seq<real>)
    requires WellFormed(b) && n <= |b.channels|
    ensures output == Interleave(b, n, b.length)
  {
    output := [];
    var i := 0;
    while i < b.length
      invariant 0 <= i <= b.length
      invariant output == Interleave(b, n, i)
    {
      var c := 0;
      while c < n
        invariant 0 <= c <= n
        invariant output == Interleave(b, n, i) + Frame(b, n, i)[..c]
      {
        output := output + [b.channels[c][i]];
        c := c + 1;
      }
      assert Frame(b, n, i)[..n] == Frame(b, n, i);
      i := i + 1;
    }
  }

  /** The second loop of `encodeWAV`: one `setInt16` per sample. */
  method ConvertSamples(output: seq<real>) returns (samples: seq<Byte>)
    ensures samples == SampleBytes(output)
  {
    samples := [];
    var k := 0;
    while k < |output|
      invariant 0 <= k <= |output|
      invariant samples == SampleBytes(output[..k])
    {
      assert output[..k + 1][..k] == output[..k];
      samples := samples + I16(ToPcm16(output[k]));
      k := k + 1;
    }
    assert output[..|output|] == output;
  }

  /** `encodeWAV(audioBuffer, numChannels, sampleRate)`. The buffer must hold
      at least `numChannels` channels (`getChannelData` throws otherwise). */
  method EncodeWav(b: PcmBuffer, numChannels: nat, sampleRate: nat) returns (bytes: seq<Byte>)
    requires WellFormed(b) && numChannels <= |b.channels|
    ensures bytes == WavBytes(b, numChannels, sampleRate)
    ensures |bytes| == 44 + DataSize(b, numChannels)
  {
    var header := Header(numChannels, sampleRate, DataSize(b, numChannels));
    var output := InterleaveChannels(b, numChannels);
    var samples := ConvertSamples(output);
    bytes := header + samples;
  }

  // ---- reading a file back ----

  /** What a reader recovers from a canonical file. */
  datatype WavInfo = WavInfo(numChannels: nat, sampleRate: nat, samples: seq<int>)

  /** The fixed fields of a canonical 44-byte header for a file of `total`
      bytes: the chunk ids, the sizes agreeing with `total`, PCM format 1,
      16 bits, and byte rate and block align consistent with the channel
      count and rate. */
  predicate HeaderOk(h: seq<Byte>, total: nat)
    requires |h| == 44
  {
    var n := ReadU16(h, 22);
    var rate := ReadU32(h, 24);
    && h[0..4] == Ascii("RIFF") && ReadU32(h, 4) == total - 8
    && h[8..12] == Ascii("WAVE") && h[12..16] == Ascii("fmt ")
    && ReadU32(h, 16) == 16 && ReadU16(h, 20) == 1
    && ReadU32(h, 28) == ByteRate(rate, n) && ReadU16(h, 32) == n * 2
    && ReadU16(h, 34) == 16 && h[36..40] == Ascii("data")
    && ReadU32(h, 40) == total - 44 && total % 2 == 0
  }

  /** The first `count` 16-bit samples after the header. */
  function ReadSamples(bytes: seq<Byte>, count: nat): (xs: seq<int>)
    requires 44 + 2 * count <= |bytes|
    ensures |xs| == count
    ensures forall k :: 0 <= k < count ==> xs[k] == ReadI16(bytes, 44 + 2 * k)
  {
    if count == 0 then [] else ReadSamples(bytes, count - 1) + [ReadI16(bytes, 44 + 2 * (count - 1))]
  }

  /** A reader for exactly the layout above. */
  function DecodeWav(bytes: seq<Byte>): (r: Option<WavInfo>)
    ensures r.Some? ==> |bytes| >= 44 && HeaderOk(bytes[..44], |bytes|)
    ensures r.Some? ==> |r.value.samples| == (|bytes| - 44) / 2
  {
    if |bytes| < 44 || !HeaderOk(bytes[..44], |bytes|) then None
    else Some(WavInfo(ReadU16(bytes, 22), ReadU32(bytes, 24), ReadSamples(bytes, (|bytes| - 44) / 2)))
  }

  /** The fields of a header, read back. */
  lemma HeaderFields(n: nat, sampleRate: nat, dataSize: nat)
    ensures var h := Header(n, sampleRate, dataSize);
      && h[0..4] == Ascii("RIFF") && ReadU32(h, 4) == (36 + dataSize) % Two32
      && h[8..12] == Ascii("WAVE") && h[12..16] == Ascii("fmt ")
      && ReadU32(h, 16) == 16 && ReadU16(h, 20) == 1
      && ReadU16(h, 22) == n % Two16 && ReadU32(h, 24) == sampleRate % Two32
      && ReadU32(h, 28) == ByteRate(sampleRate, n) % Two32 && ReadU16(h, 32) == (n * 2) % Two16
      && ReadU16(h, 34) == 16 && h[36..40] == Ascii("data") && ReadU32(h, 40) == dataSize % Two32
  {
    var h := Header(n, sampleRate, dataSize);
    assert h[4..8] == U32(36 + dataSize);
    assert h[16..20] == U32(16);
    assert h[20..22] == U16(1);
    assert h[22..24] == U16(n);
    assert h[24..28] == U32(sampleRate);
    assert h[28..32] == U32(ByteRate(sampleRate, n));
    assert h[32..34] == U16(n * 2);
    assert h[34..36] == U16(16);
    assert h[40..44] == U32(dataSize);
    ReadU32OfU32(36 + dataSize);
    ReadU32OfU32(16);
    ReadU16OfU16(1);
    ReadU16OfU16(n);
    ReadU32OfU32(sampleRate);
    ReadU32OfU32(ByteRate(sampleRate, n));
    ReadU16OfU16(n * 2);
    ReadU16OfU16(16);
    ReadU32OfU32(dataSize);
  }

  /** When every field fits its width, the header the encoder writes is one
      the reader accepts, with the channel count and rate it was given. */
  lemma HeaderAccepted(n: nat, sampleRate: nat, dataSize: nat)
    requires n * 2 < Two16
    requires sampleRate < Two32 && ByteRate(sampleRate, n) < Two32
    requires 36 + dataSize < Two32 && dataSize % 2 == 0
    ensures var h := Header(n, sampleRate, dataSize);
      && HeaderOk(h, 44 + dataSize)
      && ReadU16(h, 22) == n && ReadU32(h, 24) == sampleRate
  {
    HeaderFields(n, sampleRate, dataSize);
    FieldsFit(n, sampleRate, dataSize);
    HeaderOkFromFields(Header(n, sampleRate, dataSize), 44 + dataSize, n, sampleRate);
  }

  /** Values below their field's width are stored unchanged. */
  lemma FieldsFit(n: nat, sampleRate: nat, dataSize: nat)
    requires n * 2 < Two16
    requires sampleRate < Two32 && ByteRate(sampleRate, n) < Two32
    requires 36 + dataSize < Two32
    ensures (36 + dataSize) % Two32 == 36 + dataSize && dataSize % Two32 == dataSize
    ensures n % Two16 == n && (n * 2) % Two16 == n * 2
    ensures sampleRate % Two32 == sampleRate && ByteRate(sampleRate, n) % Two32 == ByteRate(sampleRate, n)
  {
    SmallMod(36 + dataSize, Two32);
    SmallMod(dataSize, Two32);
    SmallMod(n, Two16);
    SmallMod(n * 2, Two16);
    SmallMod(sampleRate, Two32);
    SmallMod(ByteRate(sampleRate, n), Two32);
  }

  lemma HeaderOkFromFields(h: seq<Byte>, total: nat, n: nat, rate: nat)
    requires |h| == 44 && total >= 44 && total % 2 == 0
    requires h[0..4] == Ascii("RIFF") && ReadU32(h, 4) == total - 8
    requires h[8..12] == Ascii("WAVE") && h[12..16] == Ascii("fmt ")
    requires ReadU32(h, 16) == 16 && ReadU16(h, 20) == 1
    requires ReadU16(h, 22) == n && ReadU32(h, 24) == rate
    requires ReadU32(h, 28) == ByteRate(rate, n) && ReadU16(h, 32) == n * 2
    requires ReadU16(h, 34) == 16 && h[36..40] == Ascii("data") && ReadU32(h, 40) == total - 44
    ensures HeaderOk(h, total)
  {
  }

  lemma SmallMod(x: int, m: int)
    requires 0 <= x < m
    ensures x % m == x
  {
  }

  /** The 16-bit codes of a sequence of float samples, in order. */
  function Pcm(xs: seq<real>): (vs: seq<int>)
    ensures |vs| == |xs|
    ensures forall k :: 0 <= k < |xs| ==> vs[k] == ToPcm16(xs[k])
  {
    seq(|xs|, k requires 0 <= k < |xs| => ToPcm16(xs[k]))
  }

  /** Round trip: reading the encoded file back gives the channel count, the
      sample rate and exactly the converted interleaved samples (sample `j`
      of frame `i` at position `i * n + j`, by `InterleaveAt`). */
  lemma DecodeEncoded(b: PcmBuffer, n: nat, sampleRate: nat)
    requires WellFormed(b) && n <= |b.channels|
    requires n * 2 < Two16
    requires sampleRate < Two32 && ByteRate(sampleRate, n) < Two32
    requires 36 + DataSize(b, n) < Two32
    ensures var info := DecodeWav(WavBytes(b, n, sampleRate));
      && info.Some?
      && info.value.numChannels == n
      && info.value.sampleRate == sampleRate
      && info.value.samples == Pcm(Interleave(b, n, b.length))
  {
    var bytes := WavBytes(b, n, sampleRate);
    var xs := Interleave(b, n, b.length);
    var h := Header(n, sampleRate, DataSize(b, n));
    DecodeEncodedHeader(b, n, sampleRate);
    var got := ReadSamples(bytes, |xs|);
    forall k | 0 <= k < |xs|
      ensures got[k] == ToPcm16(xs[k])
    {
      ReadI16Concat(h, SampleBytes(xs), 2 * k);
      SampleBytesAt(xs, k);
    }
  }

  lemma DecodeEncodedHeader(b: PcmBuffer, n: nat, sampleRate: nat)
    requires WellFormed(b) && n <= |b.channels|
    requires n * 2 < Two16
    requires sampleRate < Two32 && ByteRate(sampleRate, n) < Two32
    requires 36 + DataSize(b, n) < Two32
    ensures var info := DecodeWav(WavBytes(b, n, sampleRate));
      && info.Some?
      && info.value.numChannels == n
      && info.value.sampleRate == sampleRate
      && info.value.samples == ReadSamples(WavBytes(b, n, sampleRate), |Interleave(b, n, b.length)|)
  {
    var d := DataSize(b, n);
    var xs := Interleave(b, n, b.length);
    HeaderAccepted(n, sampleRate, d);
    DecodeCanonical(Header(n, sampleRate, d), SampleBytes(xs), n, sampleRate);
  }

  /** A file made of an accepted header and an even number of data bytes
      decodes to the header's channel count and rate and the data read as
      16-bit samples. */
  lemma DecodeCanonical(h: seq<Byte>, data: seq<Byte>, n: nat, rate: nat)
    requires |h| == 44 && |data| % 2 == 0
    requires HeaderOk(h, 44 + |data|) && ReadU16(h, 22) == n && ReadU32(h, 24) == rate
    ensures DecodeWav(h + data) == Some(WavInfo(n, rate, ReadSamples(h + data, |data| / 2)))
  {
    var bytes := h + data;
    assert bytes[..44] == h;
    assert ReadU16(bytes, 22) == ReadU16(h, 22);
    assert ReadU32(bytes, 24) == ReadU32(h, 24);
  }

  /** One stereo frame `[1.0, -1.0]` at 44100 Hz: a 48-byte file that reads
      back as 2 channels at 44100 Hz with RIFF size 40, whose data bytes are
      FF 7F (32767) then 00 80 (-32768). */
  lemma OneFrameExample()
    ensures var bytes := WavBytes(PcmBuffer(1, [[1.0], [-1.0]]), 2, 44100);
      && |bytes| == 48
      && ReadU32(bytes, 4) == 40
      && DecodeWav(bytes) == Some(WavInfo(2, 44100, [32767, -32768]))
      && bytes[44..48] == [0xFF, 0x7F, 0x00, 0x80]
  {
    var b := PcmBuffer(1, [[1.0], [-1.0]]);
    var bytes := WavBytes(b, 2, 44100);
    var xs := Interleave(b, 2, 1);
    assert xs == [1.0, -1.0] by {
      assert Interleave(b, 2, 0) == [];
      assert xs == Frame(b, 2, 0);
    }
    DecodeEncoded(b, 2, 44100);
    assert Pcm(xs) == [32767, -32768];
    OneFrameBytes();
    var h := Header(2, 44100, DataSize(b, 2));
    assert bytes == h + SampleBytes(xs);
    assert bytes[44..48] == SampleBytes(xs);
    assert bytes[..44] == h;
    assert ReadU32(bytes, 4) == ReadU32(bytes[..44], 4);
  }

  lemma OneFrameBytes()
    ensures SampleBytes([1.0, -1.0]) == [0xFF, 0x7F, 0x00, 0x80]
  {
    assert [1.0, -1.0][..1] == [1.0];
    assert SampleBytes([1.0]) == I16(32767);
    assert I16(-32768) == [0x00, 0x80];
  }
}

=== FILE: waveform.dfy ===
/** The trim editor of `WaveformCanvas.js`: the selected region of the
    current buffer, its clamping rules, the two drag handles and the
    playhead. Drawing is left out; the two canvases' CSS widths are inputs. */
module WaveformCanvas {
  import opened Common
  import opened Audio

  /** `_drag`: which handle, if any, the pointer holds. */
  datatype Drag = NoDrag | DragStart | DragEnd

  /** `buffer`, `startSec`, `endSec`, `_drag` and `_playheadSec`. */
  datatype Waveform = Waveform(buffer: Option<AudioBuffer>, startSec: real, endSec: real,
                               drag: Drag, playhead: Option<real>)

  /** `wave.clientWidth` and `overlay.clientWidth` in CSS pixels. */
  datatype Layout = Layout(waveWidth: nat, overlayWidth: nat)

  /** Narrowest region the editor allows, in seconds. */
  const MinWidthSec: real := 0.01

  /** Floor on the duration used by the conversions, so they never divide
      by zero. */
  const MinDurSec: real := 0.0001

  /** Pixels within which a press grabs a handle. */
  const HitPx: real := 8.0

  /** The constructor's state. */
  const Empty := Waveform(None, 0.0, 0.0, NoDrag, None)

  /** `_secToX`: seconds to a pixel offset over the wave canvas's width. */
  function SecToX(w: Waveform, layout: Layout, sec: real): (x: real)
    ensures w.buffer.None? ==> x == 0.0
    ensures w.buffer.Some? && sec >= 0.0 ==> x >= 0.0
    ensures w.buffer.Some? && 0.0 <= sec <= Max(w.buffer.value.duration, MinDurSec) ==> x <= layout.waveWidth as real
  {
    if w.buffer.None? then 0.0
    else
      var dur := Max(w.buffer.value.duration, MinDurSec);
      ScaleBounds(sec, dur, layout.waveWidth as real);
      (sec / dur) * (layout.waveWidth as real)
  }

  lemma ScaleBounds(a: real, d: real, k: real)
    requires d > 0.0 && k >= 0.0
    ensures a >= 0.0 ==> (a / d) * k >= 0.0
    ensures 0.0 <= a <= d ==> (a / d) * k <= k
  {
    if 0.0 <= a <= d {
      assert a / d <= 1.0;
      assert (a / d) * k <= 1.0 * k;
    }
  }

  /** `_xToSec`: a pixel offset back to seconds; the width is taken as at
      least one pixel. */
  function XToSec(w: Waveform, layout: Layout, x: real): (sec: real)
    ensures w.buffer.None? ==> sec == 0.0
    ensures w.buffer.Some? && x >= 0.0 ==> sec >= 0.0
  {
    if w.buffer.None? then 0.0
    else
      var width := Max(1.0, layout.waveWidth as real);
      var dur := Max(w.buffer.value.duration, MinDurSec);
      ScaleBounds(x, width, dur);
      (x / width) * dur
  }

  /** An offset over the canvas maps to a time within the buffer. */
  lemma XToSecWithin(w: Waveform, layout: Layout, x: real)
    requires w.buffer.Some? && 0.0 <= x <= Max(1.0, layout.waveWidth as real)
    ensures XToSec(w, layout, x) <= Max(w.buffer.value.duration, MinDurSec)
  {
    var width := Max(1.0, layout.waveWidth as real);
    var dur := Max(w.buffer.value.duration, MinDurSec);
    ScaleBounds(x, width, dur);
  }

  /** With a buffer and a canvas at least one pixel wide, the two
      conversions are inverse to each other. */
  lemma XToSecOfSecToX(w: Waveform, layout: Layout, sec: real)
    requires w.buffer.Some? && layout.waveWidth >= 1
    ensures XToSec(w, layout, SecToX(w, layout, sec)) == sec
  {
    var dur := Max(w.buffer.value.duration, MinDurSec);
    var width := layout.waveWidth as real;
    assert Max(1.0, width) == width;
    DivMulCancel(sec, dur, width);
  }

  lemma SecToXOfXToSec(w: Waveform, layout: Layout, x: real)
    requires w.buffer.Some? && layout.waveWidth >= 1
    ensures SecToX(w, layout, XToSec(w, layout, x)) == x
  {
    var dur := Max(w.buffer.value.duration, MinDurSec);
    var width := layout.waveWidth as real;
    assert Max(1.0, width) == width;
    DivMulCancel(x, width, dur);
  }

  /** `((a / d) * k / k) * d == a` for positive `d` and `k`. */
  lemma DivMulCancel(a: real, d: real, k: real)
    requires d > 0.0 && k > 0.0
    ensures (((a / d) * k) / k) * d == a
  {
    var q := a / d;
    assert (q * k) / k == q;
    assert q * d == a;
  }

  /** `setRegion(startSec, endSec)`: ignored with no buffer; otherwise the
      start is clamped into `[0, duration]` and the end to at most the
      duration but at least 0.01 s after the start. */
  function SetRegion(w: Waveform, startSec: real, endSec: real): (w': Waveform)
    ensures w.buffer.None? ==> w' == w
    ensures w'.buffer == w.buffer && w'.drag == w.drag && w'.playhead == w.playhead
    ensures w.buffer.Some? ==>
      var dur := w.buffer.value.duration;
      && 0.0 <= w'.startSec <= dur
      && w'.endSec >= w'.startSec + MinWidthSec
      && (w'.startSec + MinWidthSec <= dur ==> w'.endSec <= dur)
      && (0.0 <= startSec <= dur ==> w'.startSec == startSec)
      && (w'.startSec + MinWidthSec <= endSec <= dur ==> w'.endSec == endSec)
      && (startSec < 0.0 ==> w'.startSec == 0.0)
      && (startSec > dur ==> w'.startSec == dur)
      && (endSec > dur ==> w'.endSec == Max(w'.startSec + MinWidthSec, dur))
      && (endSec < w'.startSec + MinWidthSec ==> w'.endSec == w'.startSec + MinWidthSec)
  {
    if w.buffer.None? then w
    else
      var dur := w.buffer.value.duration;
      var s := Max(0.0, Min(startSec, dur));
      var e := Max(s + MinWidthSec, Min(endSec, dur));
      w.(startSec := s, endSec := e)
  }

  /** A region that already satisfies the rules is kept exactly; so setting
      the current region again changes nothing. */
  lemma SetRegionKeepsValid(w: Waveform, startSec: real, endSec: real)
    requires w.buffer.Some?
    requires 0.0 <= startSec && startSec + MinWidthSec <= endSec <= w.buffer.value.duration
    ensures SetRegion(w, startSec, endSec) == w.(startSec := startSec, endSec := endSec)
    ensures SetRegion(SetRegion(w, startSec, endSec), startSec, endSec) == SetRegion(w, startSec, endSec)
  {
  }

  /** The end can pass the duration: on a 1 s buffer, `setRegion(1, 1)`
      gives the region `[1, 1.01]`. */
  lemma SetRegionCanExceedDuration()
    ensures var w := SetRegion(Waveform(Some(AudioBuffer(1.0)), 0.0, 1.0, NoDrag, None), 1.0, 1.0);
      w.startSec == 1.0 && w.endSec == 1.01 && w.endSec > w.buffer.value.duration
  {
  }

  /** The optional second argument of `setBuffer`: absent, or an object
      whose `startSec`/`endSec` are numbers (`Some`) or not (`None`).
      A null or undefined object reads as `{}`. */
  datatype RegionArg = Omitted | Passed(startSec: Option<real>, endSec: Option<real>)

  /** `setBuffer(buf[, region])`: the region becomes the whole buffer (or
      `[0, 0]` with none); then a region with two numeric fields is applied
      through `setRegion`. */
  function SetBuffer(w: Waveform, buf: Option<AudioBuffer>, arg: RegionArg): (w': Waveform)
    ensures w'.buffer == buf && w'.drag == w.drag && w'.playhead == w.playhead
    ensures buf.None? ==> w'.startSec == 0.0 && w'.endSec == 0.0
    ensures buf.Some? && !(arg.Passed? && arg.startSec.Some? && arg.endSec.Some?) ==>
      w'.startSec == 0.0 && w'.endSec == buf.value.duration
    ensures buf.Some? && arg.Passed? && arg.startSec.Some? && arg.endSec.Some? ==>
      && 0.0 <= w'.startSec <= buf.value.duration
      && w'.endSec >= w'.startSec + MinWidthSec
  {
    var base := match buf
      case None => w.(buffer := None, startSec := 0.0, endSec := 0.0)
      case Some(b) => w.(buffer := buf, startSec := 0.0, endSec := b.duration);
    match arg
    case Passed(Some(s), Some(e)) => SetRegion(base, s, e)
    case _ => base
  }

  /** Passing a region to `setBuffer` is the same as loading the buffer
      with its default region and then calling `setRegion`. */
  lemma SetBufferWithRegion(w: Waveform, buf: AudioBuffer, s: real, e: real)
    ensures SetBuffer(w, Some(buf), Passed(Some(s), Some(e)))
         == SetRegion(SetBuffer(w, Some(buf), Omitted), s, e)
  {
  }

  /** `setPlayhead(secOrNull)`; `clearPlayhead()` passes null. */
  function SetPlayhead(w: Waveform, p: Option<real>): (w': Waveform)
    ensures w'.playhead == p
    ensures w'.buffer == w.buffer && w'.startSec == w.startSec && w'.endSec == w.endSec && w'.drag == w.drag
  {
    w.(playhead := p)
  }

  function ClearPlayhead(w: Waveform): (w': Waveform)
    ensures w'.playhead.None?
    ensures w'.buffer == w.buffer && w'.startSec == w.startSec && w'.endSec == w.endSec && w'.drag == w.drag
  {
    SetPlayhead(w, None)
  }

  /** The pointer offset clamped to the overlay, as both mouse handlers do. */
  function ClampX(layout: Layout, offset: real): (x: real)
    ensures 0.0 <= x <= layout.overlayWidth as real
    ensures 0.0 <= offset <= layout.overlayWidth as real ==> x == offset
    ensures offset < 0.0 ==> x == 0.0
    ensures offset > layout.overlayWidth as real ==> x == layout.overlayWidth as real
  {
    Max(0.0, Min(layout.overlayWidth as real, offset))
  }

  function Abs(x: real): real
  {
    if x < 0.0 then -x else x
  }

  /** `_onDown`: with a buffer, a press within 8 px of the start handle grabs
      it, else one within 8 px of the end handle grabs that, else the
      playhead jumps to the pressed time. */
  function OnDown(w: Waveform, layout: Layout, offset: real): (w': Waveform)
    ensures w.buffer.None? ==> w' == w
    ensures w'.buffer == w.buffer && w'.startSec == w.startSec && w'.endSec == w.endSec
    ensures w.buffer.Some? ==>
      var x := ClampX(layout, offset);
      && (Abs(x - SecToX(w, layout, w.startSec)) < HitPx ==> w'.drag == DragStart && w'.playhead == w.playhead)
      && (Abs(x - SecToX(w, layout, w.startSec)) >= HitPx && Abs(x - SecToX(w, layout, w.endSec)) < HitPx ==>
            w'.drag == DragEnd && w'.playhead == w.playhead)
      && (Abs(x - SecToX(w, layout, w.startSec)) >= HitPx && Abs(x - SecToX(w, layout, w.endSec)) >= HitPx ==>
            w'.drag == w.drag && w'.playhead == Some(XToSec(w, layout, x)))
      && (w'.drag != w.drag ==> w'.drag != NoDrag)
      && (w'.playhead != w.playhead ==> w'.drag == w.drag && w'.playhead == Some(XToSec(w, layout, x)))
  {
    if w.buffer.None? then w
    else
      var x := ClampX(layout, offset);
      if Abs(x - SecToX(w, layout, w.startSec)) < HitPx then w.(drag := DragStart)
      else if Abs(x - SecToX(w, layout, w.endSec)) < HitPx then w.(drag := DragEnd)
      else w.(playhead := Some(XToSec(w, layout, x)))
  }

  /** A press away from both handles puts the playhead exactly under the
      cursor: drawn back through `_secToX`, it lands on the clamped
      offset that was pressed. */
  lemma ScrubLandsUnderCursor(w: Waveform, layout: Layout, offset: real)
    requires w.buffer.Some? && layout.waveWidth >= 1
    requires Abs(ClampX(layout, offset) - SecToX(w, layout, w.startSec)) >= HitPx
    requires Abs(ClampX(layout, offset) - SecToX(w, layout, w.endSec)) >= HitPx
    ensures var w' := OnDown(w, layout, offset);
      w'.playhead.Some? && SecToX(w', layout, w'.playhead.value) == ClampX(layout, offset)
  {
    var x := ClampX(layout, offset);
    var w' := OnDown(w, layout, offset);
    assert w'.playhead == Some(XToSec(w, layout, x));
    SecToXOfXToSec(w, layout, x);
    SecToXReadsBuffer(w, w', layout, XToSec(w, layout, x));
  }

  /** The conversion depends on the waveform only through its buffer. */
  lemma SecToXReadsBuffer(w1: Waveform, w2: Waveform, layout: Layout, sec: real)
    requires w1.buffer == w2.buffer
    ensures SecToX(w1, layout, sec) == SecToX(w2, layout, sec)
  {
  }

  /** The result of a move: the new state and the region handed to
      `onChange`, if it was called. */
  datatype Moved = Moved(waveform: Waveform, notified: Option<Region>)

  /** `_onMove`: without a drag nothing happens. Dragging the start handle
      sets `startSec = min(s, endSec - 0.01)`; dragging the end handle sets
      `endSec = max(s, startSec + 0.01)`; the other end stays, and
      `onChange` receives the updated region. */
  function OnMove(w: Waveform, layout: Layout, offset: real): (r: Moved)
    ensures w.drag == NoDrag <==> r.notified.None?
    ensures w.drag == NoDrag ==> r.waveform == w
    ensures r.waveform.buffer == w.buffer && r.waveform.drag == w.drag && r.waveform.playhead == w.playhead
    ensures w.drag != NoDrag ==>
      && r.notified == Some(Region(r.waveform.startSec, r.waveform.endSec))
      && r.waveform.endSec - r.waveform.startSec >= MinWidthSec
    ensures w.drag == DragStart ==>
      && r.waveform.endSec == w.endSec
      && r.waveform.startSec <= XToSec(w, layout, ClampX(layout, offset))
      && (r.waveform.startSec == XToSec(w, layout, ClampX(layout, offset)) || r.waveform.startSec == w.endSec - MinWidthSec)
    ensures w.drag == DragEnd ==>
      && r.waveform.startSec == w.startSec
      && r.waveform.endSec >= XToSec(w, layout, ClampX(layout, offset))
      && (r.waveform.endSec == XToSec(w, layout, ClampX(layout, offset)) || r.waveform.endSec == w.startSec + MinWidthSec)
  {
    if w.drag == NoDrag then Moved(w, None)
    else
      var s := XToSec(w, layout, ClampX(layout, offset));
      var w' := if w.drag == DragStart then w.(startSec := Min(s, w.endSec - MinWidthSec))
                else w.(endSec := Max(s, w.startSec + MinWidthSec));
      Moved(w', Some(Region(w'.startSec, w'.endSec)))
  }

  /** `_onUp`: releases any handle; the region stays. */
  function OnUp(w: Waveform): (w': Waveform)
    ensures w'.drag == NoDrag
    ensures w'.buffer == w.buffer && w'.startSec == w.startSec && w'.endSec == w.endSec && w'.playhead == w.playhead
  {
    w.(drag := NoDrag)
  }

  /** A drag inside a valid region on a wide enough buffer stays valid when
      the pointer stays over the buffer's span: start not negative, end
      not past the duration, and the 0.01 s gap kept. */
  lemma DragKeepsRegionValid(w: Waveform, layout: Layout, offset: real)
    requires w.buffer.Some?
    requires layout.waveWidth >= 1 && layout.overlayWidth <= layout.waveWidth
    requires w.buffer.value.duration >= MinDurSec
    requires 0.0 <= w.startSec && w.startSec + MinWidthSec <= w.endSec <= w.buffer.value.duration
    ensures var w' := OnMove(w, layout, offset).waveform;
      0.0 <= w'.startSec && w'.startSec + MinWidthSec <= w'.endSec <= w.buffer.value.duration
  {
    var x := ClampX(layout, offset);
    var dur := w.buffer.value.duration;
    var sec := XToSec(w, layout, x);
    assert Max(1.0, layout.waveWidth as real) == layout.waveWidth as real;
    assert Max(dur, MinDurSec) == dur;
    XToSecWithin(w, layout, x);
    var r := OnMove(w, layout, offset);
    assert r.waveform.endSec - r.waveform.startSec >= MinWidthSec;
  }

  /** On a buffer shorter than 0.01 s whose default region was never
      clamped, dragging the start handle moves the start before zero. */
  lemma DragStartCanGoNegative()
    ensures var w := Waveform(Some(AudioBuffer(0.005)), 0.0, 0.005, DragStart, None);
      OnMove(w, Layout(100, 100), 0.0).waveform.startSec < 0.0
  {
  }
}
